=== FILE: README.md ===
# Nexodus peering selection and device handlers, in Dafny

This project models two parts of Nexodus, a WireGuard mesh-networking system.

**The agent's peering-method selection** (`internal/nexodus/wg_peers.go`).

- For every peer in its device cache, the agent keeps a peering method: a name, plus an index into a fixed list of seven methods. The index is -1 after a reset.
- When the method in use has failed, the agent moves to the first later method whose prerequisites hold.
- When nothing later qualifies, or via-relay itself has failed, the agent starts over from the top.
- One pass over the cache, `buildPeersConfig`, does the following:
  - re-decides every other peer;
  - stores or deletes its WireGuard peer section;
  - records the peers whose configuration changed;
  - widens the healthy relay's AllowedIPs with the prefixes of the peers reached through it. A flag selects the list as written (the IPv4 prefix twice, see "## Findings") or the corrected one.

**The API server's device handlers** (`internal/handlers/device.go`).

- Update merges a request into the stored device.
- Create runs checks in a fixed order: body, public key, user, organization, key conflict, membership. It then takes an address from IPAM and builds the new record.
- Delete removes a device. As written it never gives the device's address or prefixes back to IPAM (see "## Findings"). The corrected handler releases them from the stored record.

Modules:

- `Wrappers` (`wrappers.dfy`): `Option`.
- `Peering` (`peering.dfy`): the method list, the prerequisites, the peer-section builders, endpoint extraction, and the state machine. The state machine covers `peeringReset`, `shouldResetPeering`, `peeringFailed`, `rebuildPeerConfig` and `peerConfigUpdated`.
- `PeerMap` (`peer_map.dfy`): the peer-map part of `buildPeersConfig`. It is written as a loop over an explicit iteration order, followed by the relay widening.
- `PeeringProperties` (`peering_properties.dfy`): lemmas relating the state machine's calls.
- `DeviceHandlers` (`devices.dfy`): `UpdateDevice`, `CreateDevice` and `DeleteDevice`, each a pure function from its inputs to the response it writes.
- `DeviceProperties` (`device_properties.dfy`): lemmas relating several requests.

How the Go program's environment appears in the model:

- **Time.** Time is an integer count of nanoseconds, with 0 standing for Go's zero `time.Time`. `time.Now()` is the `now` parameter, and `time.Since(t)` is `now - t`. One pass uses one instant: the `now` the loop stamps on changed entries (wg_peers.go:222) also stands for every later `time.Since` inside `peeringFailed`, which the source evaluates a little later.
- **Map iteration order.** Go's map iteration order is a parameter:
  - `order` is any permutation of the cache keys;
  - `relayKey` is any healthy relay, or None when there is none.

  Every contract holds for every such choice.
- **Reflexive-address comparison.** Whether a peer's reflexive address has the same host as the node's is an uninterpreted boolean: `sameReflexive`, or in `BuildPeersConfig` the set of peer keys for which it holds.
- **Database.** The database is a set of maps. Its failures are boolean flags, and a lookup answers `Found`, `NotFound` or `DbError`.
- **IPAM.** IPAM's answers are inputs: the pool address, or None on error; the set of child prefixes it refuses; the set of releases that fail.
- **IP parsing.** `net.ParseIP` succeeding is the predicate `isIP`.

## Model

| member | source | states |
|---|---|---|
| `Peering.LastAddressOfKind` | internal/nexodus/wg_peers.go:312-323 | The result is the address of the last endpoint of the requested kind ("local" source or any other source), or "" when there is none. |
| `Peering.ExtractLocalAndReflexiveIP` | internal/nexodus/wg_peers.go:312-323 | The local address is that of the last "local"-sourced endpoint, and the reflexive address that of the last endpoint with any other source. Each is "" when absent. |
| `Peering.BuildPeerConfig` | internal/nexodus/wg_peers.go:334-400 | Via-relay yields only AllowedIPsForRelay, equal to the peer's advertised prefixes. Every other method sets the peer's key and the keepalive and no relay prefixes. Its endpoint is the local address for the three direct-local methods and the reflexive one otherwise. Its AllowedIPs are the VPC prefixes for the two relay-peer methods and otherwise the peer's AllowedIps followed by its advertised prefixes. |
| `Peering.PeeringReset` | internal/nexodus/wg_peers.go:103-121 | The method becomes "none" and the index -1. Health is cleared, and every counter and timestamp is zeroed. The device record is unchanged. |
| `Peering.Prereq` | internal/nexodus/wg_peers.go:39-101 | A relay node is offered exactly relay-self, plus relay-self-direct-local when the reflexive address is the same. Otherwise a relay peer is offered exactly relay-peer, plus relay-peer-direct-local when the reflexive address is the same; these are the two methods that route the VPC through the relay. The local-endpoint methods need the same reflexive address, and via-relay a healthy relay. Between two ordinary nodes, direct-local, reflexive and via-relay are open exactly on their own conditions. `PeeringProperties.PrerequisitesFollowTheRoles` places every open method in its role's block of positions. |
| `Peering.AnyCandidateFrom` | internal/nexodus/wg_peers.go:137-142 | True exactly when some method at the given position or later has its prerequisites met. |
| `Peering.ShouldResetPeering` | internal/nexodus/wg_peers.go:125-146 | False at index -1 and true at the last index. Otherwise true exactly when no later method has its prerequisites met. |
| `Peering.PeeringFailed` | internal/nexodus/wg_peers.go:267-293 | A healthy peer never fails. On via-relay, it fails exactly when no relay is healthy. Otherwise a never-tried method does not fail, a method that never worked fails only after 30 s, and one that once worked fails only 180 s after it was last healthy. Once the relevant timeout has passed, an unhealthy tried method has failed. |
| `Peering.SelectMethod` | internal/nexodus/wg_peers.go:169-190 | The selection loop returns the first eligible position: not before the current index, not the failed current method, and prerequisites met. It returns nothing when no position is eligible, or when the peer is already on via-relay and via-relay is the first eligible position. |
| `Peering.RebuildPeerConfig` | internal/nexodus/wg_peers.go:148-193 | See below. |
| `Peering.PeerConfigUpdated` | internal/nexodus/wg_peers.go:295-309 | A key with no stored section is always an update. Otherwise it is an update exactly when the endpoint or the AllowedIPs differ from the stored section's. `PeeringProperties.StoredConfigIsNotUpdated` is its partner: storing a section makes an equal one no update. |
| `Peering.ViaRelayNameOnlyAtLastIndex` | internal/nexodus/wg_peers.go:19-26 | For an entry whose name matches its index, the name is "via-relay" exactly when the index is the last one. No other method, and not "none", has that name. |
| `Peering.RelayPrefixesOfRebuild` | internal/nexodus/wg_peers.go:186-192 | A rebuilt section carries relay prefixes only in two cases: it is a fresh switch to via-relay carrying the peer's advertised prefixes, or it is the section already installed. |
| `PeeringProperties.PrerequisitesFollowTheRoles` | internal/nexodus/wg_peers.go:39-101 | Only the first two methods are open to a relay node. Only the two relay-peer methods are open when the peer is a relay. Only the last three are open between two ordinary nodes. |
| `PeeringProperties.FailedMethodIsReplacedByFirstLaterCandidate` | internal/nexodus/wg_peers.go:156-189 | A failed method that is not reset is replaced by the smallest later position whose prerequisites hold, with that method's name. The cache entry is not reset. |
| `PeeringProperties.ResetRestartsFromTheTop` | internal/nexodus/wg_peers.go:156-192 | When the method has failed and `shouldResetPeering` holds, the entry is reset and the first method in the whole list whose prerequisites hold is chosen. With none, the peer stays at "none"/-1 with its installed peer section. |
| `PeeringProperties.RebuildKeepsNameAndIndexConsistent` | internal/nexodus/wg_peers.go:166-192 | If a cache entry's method name matches its index ("none" with -1, or the method at that position), the name and index chosen by a rebuild match as well. |
| `PeeringProperties.ResetEntryHasNotFailed` | internal/nexodus/wg_peers.go:267-279 | A freshly reset entry has not failed, is not due for another reset, and is consistent. |
| `PeeringProperties.FailureIsMonotoneInTime` | internal/nexodus/wg_peers.go:281-292 | Once a method has failed, it has failed at every later time. |
| `PeeringProperties.StayingOnViaRelayKeepsNoPrefixes` | internal/nexodus/wg_peers.go:182-185 | A peer on via-relay that has not failed keeps the via-relay method and the last index, and gets back the peer map's entry. With no entry, it contributes no prefixes to the relay. |
| `PeeringProperties.RelayPrefixesComeFromViaRelay` | internal/nexodus/wg_peers.go:230-233 | When the peer map holds no relay prefixes, a rebuild yields relay prefixes only by switching to via-relay, and they are the peer's advertised prefixes. |
| `PeeringProperties.StoredConfigIsNotUpdated` | internal/nexodus/wg_peers.go:295-309 | A section equal in endpoint and AllowedIPs to the one stored is not an update. A key with no stored section always is. |
| `PeeringProperties.RelayWideningAsWrittenDropsIpv6` | internal/nexodus/wg_peers.go:257-262 | If the VPC's IPv6 prefix differs from its IPv4 prefix and is not among the collected prefixes, the widening as written omits it and the corrected one contains it. |
| `PeerMap.RelayAllowedIPs` | internal/nexodus/wg_peers.go:257-262 | Corrected, the widened relay's AllowedIPs are the VPC's IPv4 and IPv6 prefixes followed by the collected prefixes. |
| `PeerMap.RelayAllowedIPsAsWritten` | internal/nexodus/wg_peers.go:260 | As written, the list starts with the IPv4 prefix twice, followed by the collected prefixes. |
| `PeerMap.WidenRelay` | internal/nexodus/wg_peers.go:257-262 | With a healthy relay and some collected prefixes, only the relay's entry changes. It is added if absent, and only its AllowedIPs are replaced: by the as-written list (the IPv4 prefix twice) when the flag asks for it, and by the corrected list otherwise. Every other key is untouched. Relay prefixes are never introduced. |
| `PeerMap.VisitPeer` | internal/nexodus/wg_peers.go:224-255 | See below. |
| `PeerMap.VisitNext` | internal/nexodus/wg_peers.go:223-255 | One more turn of the loop applies one more key as by one visit, and appends that peer's relay prefixes to those gathered so far. |
| `PeerMap.VisitAll` | internal/nexodus/wg_peers.go:223-255 | After the loop over the whole cache, every key has been applied as by one visit. The gathered relay prefixes are those of every peer but the node, in iteration order. |
| `PeerMap.VisitedStoresNoRelayPrefixes` | internal/nexodus/wg_peers.go:241-249 | If the peer map held no relay prefixes before the loop, it holds none after it: a via-relay choice deletes rather than stores. |
| `PeerMap.WidenedPeersApplied` | internal/nexodus/wg_peers.go:257-262 | Widening the relay after the loop leaves every other cached peer's entry as the loop applied it, and every key outside the cache as it was. |
| `PeerMap.BuildPeersConfig` | internal/nexodus/wg_peers.go:199-265 | See below. |
| `DeviceHandlers.MergeUpdate` | internal/handlers/device.go:106-128 | Each string field is overwritten only by a non-empty request value, and the organization only by a non-nil one. SymmetricNat always ends equal to the request's value. Every other field is unchanged. |
| `DeviceHandlers.UpdateDevice` | internal/handlers/device.go:82-133 | See below. |
| `DeviceHandlers.HostPrefix` | internal/handlers/device.go:239-243 | The prefix is the address with "/32" appended exactly when it parses as an IP and the device is not a hub-zone relay. Otherwise it is the address itself. |
| `DeviceHandlers.ChildPrefixesToAssignAsWritten` | internal/handlers/device.go:229-237 | As written, the prefixes assigned are those of the public-key lookup's record. When that lookup did not find a device, which is the only case that reaches the loop, there are none. |
| `DeviceHandlers.Permitted` | internal/handlers/device.go:189-194 | The membership loop is true exactly when the organization id occurs among the user's organizations. |
| `DeviceHandlers.OrganizationOf` | internal/handlers/device.go:171-176 | Without a database error, the organization is found exactly when it is stored. After any other database error, the zero organization is used. |
| `DeviceHandlers.NewDevice` | internal/handlers/device.go:200-262 | See below. |
| `DeviceHandlers.CreateDevice` | internal/handlers/device.go:148-278 | See below. |
| `DeviceHandlers.ReleasePlan` | internal/handlers/device.go:317-331 | The pool lease is released, first, exactly when both the tunnel address and the organization prefix are non-empty. Then every child prefix is released, in order. |
| `DeviceHandlers.PrefixReleases` | internal/handlers/device.go:325-331 | There is one release of each child prefix, under the device's organization, in order. |
| `DeviceHandlers.AfterReleases` | internal/handlers/device.go:317-333 | The status is 500 exactly when some planned release fails; otherwise it is 200 with the record. |
| `DeviceHandlers.DeleteDeviceAsWritten` | internal/handlers/device.go:295-334 | An invalid id gives 400, and a delete error gives 400 with its message. Otherwise the device is removed, nothing is ever released as written, and the answer is 200 with the fresh record holding only the id. |
| `DeviceHandlers.DeleteDevice` | internal/handlers/device.go:295-334 | The same error cases as the as-written handler. On success the device is removed and the releases are exactly the plan of the stored record. The status is 500 exactly when one of them fails; otherwise the answer is 200 with the deleted record. |
| `DeviceProperties.MergeUpdateIsIdempotent` | internal/handlers/device.go:106-128 | Applying the same update twice equals applying it once. |
| `DeviceProperties.EmptyUpdateOnlySetsSymmetricNat` | internal/handlers/device.go:106-128 | An update with no fields set changes only the SymmetricNat flag. |
| `DeviceProperties.UpdateReplayIsStable` | internal/handlers/device.go:99-132 | Replaying a successful update against the saved record saves and returns the same record. |
| `DeviceProperties.CreateTwiceIsAConflict` | internal/handlers/device.go:178-183 | Once a device is created and stored under its key, the same request answers 409 with that device. |
| `DeviceProperties.ConflictIsAnsweredBeforeMembership` | internal/handlers/device.go:178-198 | A user outside the organization who sends a known public key gets 409 with the existing device, not 403. |
| `DeviceProperties.ChildPrefixesIgnoredAsWritten` | internal/handlers/device.go:229-237 | If IPAM refuses a requested child prefix and every other step passes, the as-written handler never asks for that prefix and creates the device with 201. The corrected handler answers 500. |
| `DeviceProperties.CreatedDeviceRoutesItsAddress` | internal/handlers/device.go:239-246 | A created device's AllowedIPs are exactly the pool address with "/32" when the address parses and the device is not a relay in a hub-zone organization, and exactly the bare address otherwise. |
| `DeviceProperties.CreatedDeviceHoldsItsLeases` | internal/handlers/device.go:248-262 | A created device holds the pool address, the organization's id and prefix, and the child prefixes of its request. |
| `DeviceProperties.DeleteReleasesWhatCreateAssigned` | internal/handlers/device.go:317-331 | Deleting a device as the create handler builds it releases its pool address under the organization's prefix, then each child prefix the request named. The device is removed. |
| `DeviceProperties.DeleteAsWrittenLeaksThePoolAddress` | internal/handlers/device.go:304-317 | For a stored device holding an address and a prefix, the as-written handler releases nothing and answers 200. Releasing from the stored record gives the address back first. |

The rows marked "See below" state the following.

**`Peering.RebuildPeerConfig`**

- The index stays in [-1, 6].
- A reset happens exactly after a failure at the last index or when no later method qualifies, the condition `shouldResetPeering` decides.
- Without a reset, the index never goes down.
- After a failure without a reset, it moves strictly forward.
- The first eligible method is built.
- With no eligible method, or when staying on via-relay, the installed section, name and index are kept.

**`PeerMap.VisitPeer`**

- The node itself is skipped.
- An unchanged section changes nothing.
- A changed section is recorded as updated, and the cache entry gets the new method, index and peering time.
- Via-relay deletes the peer's entry; any other method stores the section.
- Nothing else changes.
- The returned relay prefixes are the rebuilt section's, or none for the node itself.

**`PeerMap.BuildPeersConfig`**

- The cache keeps its keys.
- Only changed peers other than the node are reported as updated. They get a new method, index and peering time, and every other cache entry is unchanged.
- Every peer but the widened relay gets exactly its own stored or deleted section.
- Keys outside the cache are untouched.
- The relay's AllowedIPs become two VPC prefixes followed by the collected ones. With the as-written flag these are the IPv4 prefix twice, as at wg_peers.go:260. Without it they are the IPv4 and IPv6 prefixes.
- The node's own key is never added, except when the node is itself the healthy relay being widened: then its entry is created as at wg_peers.go:259-261.
- Relay prefixes are never stored in the peer map.

**`DeviceHandlers.UpdateDevice`**

- An invalid id gives 400 before the body is read.
- A bind failure gives 400, and an unknown id gives 404.
- A found device is merged, saved and returned with 200.
- Any other database error merges into the zero record, saves it and answers 200 with it.
- 200 is answered exactly when something is saved.

**`DeviceHandlers.NewDevice`**

- AllowedIPs is exactly the host prefix, computed with the relay flag narrowed to hub zones.
- TunnelIP is the IPAM address, and OrganizationPrefix the organization's prefix.
- The stored Relay is the request's own flag.
- The other fields come from the request, the user and the organization.

**`DeviceHandlers.CreateDevice`**

- 400 for a bad body and for an empty public key.
- 500 for an unknown user.
- 404 for an unknown organization.
- 409 with the existing device on a key conflict, and 500 on any other error of that key lookup.
- Past the conflict check, 403 exactly when the user is not a member.
- For a member, 500 when IPAM gives no address.
- A flag selects how child prefixes are assigned. As written (device.go:230) the loop runs over the lookup's empty record, so a refused prefix never fails the request. Corrected, the request's prefixes are assigned and a refused one answers 500.
- 500 when the create or the commit fails after every earlier step passed.
- 201 exactly when a device is created. The new device is built from the request, the organization and the pool address, and every step passing guarantees creation.

## Left out

- `buildLocalConfig` (wg_peers.go:209) is not modelled. It removes the local interface on some platforms and depends on `runtime.GOOS`.
- `nx.wireguardPubKeyInConfig` (wg_peers.go:207) is not modelled. It is a flag read by code outside this model.
- Logging (`logPeerInfo` and the debug messages) and `peerCleanup` are left out, as OS and interface calls without effect on the decisions.
- `extractPeerPort` / `net.SplitHostPort` is left out: no builder uses the port.
- `parseIPfromAddrPort` and the `netip` comparison behind the "same reflexive address" prerequisite are an uninterpreted boolean.
- `persistentKeepalive` is defined outside the modelled file. It is the `Node` field `persistentKeepalive`.
- Go distinguishes a nil slice from an empty one in `reflect.DeepEqual` (wg_peers.go:304). The model has one empty sequence, so a nil and an empty AllowedIPs list compare equal here.
- The cache is assumed keyed by each device's public key, as the loop writes it back (wg_peers.go:253). The cached index is assumed to lie in [-1, 6], the only values the agent stores: a loop position, or -1 after a reset. Outside that range the source behaves differently. An index of -2 or less panics at a negative index of `wgPeerMethods` (wg_peers.go:138) once the method has failed. An index of 7 or more behaves as follows. Once the method has failed, `shouldResetPeering` returns true without indexing, the entry is reset to -1 (wg_peers.go:161), and the whole list is searched. While it has not failed, the selection loop skips every method and keeps the installed section.
- gorm transactions and rollbacks, tracing spans, JSON binding and the IPAM client are abstract inputs (lookup results, failure flags, the pool address, refused prefixes, failing releases). Only their outcomes are modelled.
- `api.db.Save` in UpdateDevice (device.go:130) ignores its result, so the model does not model its failure either.
- CreateDevice: error bodies carry fixed text. The source appends the organization id to the 403 message and the IPAM error to the IPAM messages. A failed `tx.Create` answers with the database's own message, while the model uses "database error".
- CreateDevice: the static-address branch (device.go:210-218) is not modelled. It reads the lookup result, which is always empty there, so it never runs; a corrected version would read a TunnelIP field of the request. `AddRequest` is `models.AddDevice`, whose definition is not part of this model, so whether it has such a field cannot be seen and `AddRequest` carries none.
- DeleteDevice and DeleteDeviceAsWritten: a failed release body carries fixed text, not the IPAM error. After a 500 the status stays 500, as gin keeps the first status written. Each later `c.JSON` (device.go:319, 327, 333) still appends its body, and the model keeps only the first.
- BuildPeersConfig: only the AllowedIPs of the widened relay's entry are stated there. The rest of that entry is stated by WidenRelay.
- ListDevice and GetDevice, events.go, join.go, the nexctl commands, the web UI pages, the cucumber test steps, ctlexit.go and the VPC model files are not part of this model. They are I/O, client or UI glue around the modelled decisions.

## Findings

| source | as written | input that shows it | evidently intended | confidence | as-written member | corrected member |
|---|---|---|---|---|---|---|
| internal/nexodus/wg_peers.go:260 | The relay's AllowedIPs start with `nx.vpc.Ipv4Cidr` twice, so the IPv6 VPC prefix is dropped from the relay peer | vpc = (`100.64.0.0/10`, `200::/64`), one peer advertising `10.1.0.0/24` that switches to via-relay in this pass (say its reflexive method has been unhealthy for more than 30 s and the relay is healthy): the relay gets [`100.64.0.0/10`, `100.64.0.0/10`, `10.1.0.0/24`] | `[Ipv4Cidr, Ipv6Cidr]` followed by the collected prefixes, as the relay list is built at wg_peers.go:151-154 | not executed | `PeerMap.RelayAllowedIPsAsWritten` | `PeerMap.RelayAllowedIPs` |
| internal/handlers/device.go:304-317 | DeleteDevice reads the tunnel address, organization prefix and child prefixes from a fresh record holding only the id, so they are always empty and no IPAM release is ever made | a stored device with TunnelIP `100.64.0.5` and OrganizationPrefix `100.64.0.0/10`: deleting it leaves the address leased | load the stored device before deleting it and release its address and child prefixes | not executed | `DeviceHandlers.DeleteDeviceAsWritten` | `DeviceHandlers.DeleteDevice` |
| internal/handlers/device.go:230 | CreateDevice assigns the child prefixes of `device`, the record of a public-key lookup that found nothing, so the request's child prefixes are never assigned; `CreateDevice` with its as-written flag models this | a create request with ChildPrefix [`10.1.0.0/24`] that IPAM would refuse: the device is still created with 201 | iterate `request.ChildPrefix` | not executed | `DeviceHandlers.ChildPrefixesToAssignAsWritten` | `DeviceHandlers.CreateDevice` |

=== FILE: device_properties.dfy ===
/**
 * Properties of the device handlers that relate several requests: repeating
 * an update, creating the same key twice, and deleting what a create
 * assigned.
 */
module DeviceProperties {
  import opened Wrappers
  import opened DeviceHandlers

  /** Applying the same update twice is the same as applying it once. */
  lemma MergeUpdateIsIdempotent(d: Device, req: UpdateRequest)
    ensures MergeUpdate(MergeUpdate(d, req), req) == MergeUpdate(d, req)
  {
  }

  /** An update naming no field changes only the symmetric-NAT flag. */
  lemma EmptyUpdateOnlySetsSymmetricNat(d: Device, symmetricNat: bool)
    ensures MergeUpdate(d, UpdateRequest("", "", "", NilUuid, "", symmetricNat)) == d.(symmetricNat := symmetricNat)
  {
  }

  /** Replaying a successful update against the saved record saves and returns the same record. */
  lemma UpdateReplayIsStable(id: Uuid, req: UpdateRequest, devices: map<Uuid, Device>)
    requires id in devices
    ensures var r1 := UpdateDevice(Some(id), Bound(req), devices, false);
            && r1.saved.Some?
            && UpdateDevice(Some(id), Bound(req), devices[id := r1.saved.value], false) == r1
  {
    var r1 := UpdateDevice(Some(id), Bound(req), devices, false);
    MergeUpdateIsIdempotent(devices[id], req);
  }

  /** The database after a successful create: the new device indexed by its key. */
  function StoreCreated(store: Store, d: Device): (s: Store)
    ensures d.publicKey in s.devicesByKey && s.devicesByKey[d.publicKey] == d
    ensures s.users == store.users && s.organizations == store.organizations
  {
    store.(devicesByKey := store.devicesByKey[d.publicKey := d])
  }

  /**
   * Public keys are unique: once a device is created, the same request again
   * is a conflict answered with the device already stored.
   */
  lemma CreateTwiceIsAConflict(body: Bind<AddRequest>, userId: string, store: Store, faults: Faults, ipam: Ipam,
                               isIP: string -> bool, newId: Uuid, ipam2: Ipam, newId2: Uuid,
                               asWritten: bool)
    requires !faults.keyLookup
    requires CreateDevice(body, userId, store, faults, ipam, isIP, newId, asWritten).created.Some?
    ensures var d := CreateDevice(body, userId, store, faults, ipam, isIP, newId, asWritten).created.value;
            CreateDevice(body, userId, StoreCreated(store, d), faults, ipam2, isIP, newId2, asWritten)
              == CreateOutcome(Response(StatusConflict, Record(d)), None)
  {
    var d := CreateDevice(body, userId, store, faults, ipam, isIP, newId, asWritten).created.value;
    var store2 := StoreCreated(store, d);
    assert d.publicKey == body.value.publicKey;
    assert Find(store2.devicesByKey, body.value.publicKey, faults.keyLookup).Found?;
    assert OrganizationOf(store2, faults, body.value) == OrganizationOf(store, faults, body.value);
  }

  /**
   * The conflict check comes before the membership check: a user outside the
   * organization who sends a known key is shown the existing device.
   */
  lemma ConflictIsAnsweredBeforeMembership(body: Bind<AddRequest>, userId: string, store: Store, faults: Faults,
                                           ipam: Ipam, isIP: string -> bool, newId: Uuid, asWritten: bool)
    requires WellFormed(body) && !faults.userLookup && !faults.keyLookup && !faults.organizationLookup
    requires userId in store.users && body.value.organizationId in store.organizations
    requires body.value.publicKey in store.devicesByKey
    requires !IsMember(store.users[userId], body.value.organizationId)
    ensures var r := CreateDevice(body, userId, store, faults, ipam, isIP, newId, asWritten);
            r.response == Response(StatusConflict, Record(store.devicesByKey[body.value.publicKey]))
  {
  }

  /**
   * As written, a request's child prefixes are never handed to IPAM, so one
   * IPAM would refuse cannot fail the request and the device is created;
   * assigning the request's prefixes makes the refusal surface as a 500.
   */
  lemma ChildPrefixesIgnoredAsWritten(body: Bind<AddRequest>, userId: string, store: Store, faults: Faults,
                                      ipam: Ipam, isIP: string -> bool, newId: Uuid, p: string)
    requires ReachesMembership(body, userId, store, faults)
    requires IsMember(store.users[userId], body.value.organizationId)
    requires ipam.poolAddress.Some? && !faults.create && !faults.commit
    requires p in body.value.childPrefix && p in ipam.failingPrefixes
    ensures ChildPrefixesToAssignAsWritten(Find(store.devicesByKey, body.value.publicKey, faults.keyLookup)) == []
    ensures CreateDevice(body, userId, store, faults, ipam, isIP, newId, true).response.status == StatusCreated
    ensures CreateDevice(body, userId, store, faults, ipam, isIP, newId, false)
              == Fail(StatusInternalServerError, "failed to assign child prefix")
  {
  }

  /** What a successful create stores: the pool address, the organization's prefix and the requested prefixes. */
  lemma CreatedDeviceHoldsItsLeases(body: Bind<AddRequest>, userId: string, store: Store, faults: Faults,
                                    ipam: Ipam, isIP: string -> bool, newId: Uuid, asWritten: bool, d: Device)
    requires CreateDevice(body, userId, store, faults, ipam, isIP, newId, asWritten).created == Some(d)
    ensures body.Bound? && ipam.poolAddress.Some? && OrganizationOf(store, faults, body.value).Some?
    ensures var org := OrganizationOf(store, faults, body.value).value;
            && d.tunnelIp == ipam.poolAddress.value && d.organizationPrefix == org.ipCidr
            && d.organizationId == org.id && d.childPrefix == body.value.childPrefix
  {
  }

  /**
   * A created device routes its pool address as a /32 host route, unless it
   * is a relay in a hub-zone organization or the address does not parse;
   * then it routes the bare address.
   */
  lemma CreatedDeviceRoutesItsAddress(body: Bind<AddRequest>, userId: string, store: Store, faults: Faults,
                                      ipam: Ipam, isIP: string -> bool, newId: Uuid, asWritten: bool, d: Device)
    requires CreateDevice(body, userId, store, faults, ipam, isIP, newId, asWritten).created == Some(d)
    ensures body.Bound? && ipam.poolAddress.Some? && OrganizationOf(store, faults, body.value).Some?
    ensures var addr := ipam.poolAddress.value;
            var hubRelay := body.value.relay && OrganizationOf(store, faults, body.value).value.hubZone;
            && (isIP(addr) && !hubRelay ==> d.allowedIps == [addr + "/32"])
            && (!isIP(addr) || hubRelay ==> d.allowedIps == [addr])
  {
  }

  /**
   * Deleting a device gives back what creating it took: the pool address
   * under the organization's prefix, then each requested child prefix.
   * (A created device is always `NewDevice` of its request, by the contract
   * of CreateDevice.)
   */
  lemma DeleteReleasesWhatCreateAssigned(newId: Uuid, user: User, org: Organization, req: AddRequest, ipamIP: string,
                                         isIP: string -> bool, devices: map<Uuid, Device>,
                                         failingReleases: set<Release>)
    requires ipamIP != "" && org.ipCidr != ""
    ensures var d := NewDevice(newId, user, org, req, ipamIP, isIP);
            var r := DeleteDevice(Some(newId), devices[newId := d], None, failingReleases);
            && |r.releases| == 1 + |req.childPrefix|
            && r.releases[0] == PoolRelease(org.id, ipamIP, org.ipCidr)
            && (forall j :: 0 <= j < |req.childPrefix| ==>
                  r.releases[1 + j] == PrefixRelease(org.id, req.childPrefix[j]))
            && newId !in r.devices
  {
    var d := NewDevice(newId, user, org, req, ipamIP, isIP);
    var r := DeleteDevice(Some(newId), devices[newId := d], None, failingReleases);
    assert r.releases == ReleasePlan(d);
  }

  /**
   * As written, deleting a device that holds a pool address releases nothing
   * and always answers 200, while releasing from the stored record gives the
   * address back first.
   */
  lemma DeleteAsWrittenLeaksThePoolAddress(id: Uuid, devices: map<Uuid, Device>, failingReleases: set<Release>)
    requires id in devices
    requires devices[id].tunnelIp != "" && devices[id].organizationPrefix != ""
    ensures DeleteDeviceAsWritten(Some(id), devices, None, failingReleases).releases == []
    ensures DeleteDeviceAsWritten(Some(id), devices, None, failingReleases).response.status == StatusOK
    ensures var d := devices[id];
            DeleteDevice(Some(id), devices, None, failingReleases).releases[0]
              == PoolRelease(d.organizationId, d.tunnelIp, d.organizationPrefix)
  {
  }
}

=== FILE: devices.dfy ===
/**
 * The device endpoints of the Nexodus API server: the decisions the update,
 * create and delete handlers take on their inputs. The database is a set of
 * maps, its failures are flags, IPAM answers are inputs, and every handler is
 * a pure function from its inputs to the HTTP response it writes.
 */
module DeviceHandlers {
  import opened Wrappers

  /** UUIDs are opaque identifiers; 0 stands for the nil UUID. */
  type Uuid = nat
  const NilUuid: Uuid := 0

  const StatusOK: int := 200
  const StatusCreated: int := 201
  const StatusBadRequest: int := 400
  const StatusForbidden: int := 403
  const StatusNotFound: int := 404
  const StatusConflict: int := 409
  const StatusInternalServerError: int := 500

  /** The stored device record. */
  datatype Device = Device(
    id: Uuid,
    userId: string,
    organizationId: Uuid,
    publicKey: string,
    localIp: string,
    allowedIps: seq<string>,
    tunnelIp: string,
    childPrefix: seq<string>,
    relay: bool,
    organizationPrefix: string,
    reflexiveIPv4: string,
    endpointLocalAddressIPv4: string,
    symmetricNat: bool,
    hostname: string)

  /** Go's zero `models.Device`. */
  const ZeroDevice: Device := Device(NilUuid, "", NilUuid, "", "", [], "", [], false, "", "", "", false, "")

  /** The body of an update request. */
  datatype UpdateRequest = UpdateRequest(
    endpointLocalAddressIPv4: string,
    hostname: string,
    localIp: string,
    organizationId: Uuid,
    reflexiveIPv4: string,
    symmetricNat: bool)

  /** The body of a create request. */
  datatype AddRequest = AddRequest(
    publicKey: string,
    organizationId: Uuid,
    localIp: string,
    childPrefix: seq<string>,
    relay: bool,
    reflexiveIPv4: string,
    endpointLocalAddressIPv4: string,
    symmetricNat: bool,
    hostname: string)

  /** A user and the ids of the organizations it belongs to. */
  datatype User = User(id: string, organizations: seq<Uuid>)

  datatype Organization = Organization(id: Uuid, ipCidr: string, hubZone: bool)

  /** Go's zero `models.Organization`. */
  const ZeroOrganization: Organization := Organization(NilUuid, "", false)

  /** A database lookup: a record, "record not found", or any other error. */
  datatype Lookup<T> = Found(value: T) | NotFound | DbError

  function Find<K, V>(m: map<K, V>, k: K, fails: bool): (r: Lookup<V>)
    ensures fails <==> r.DbError?
    ensures !fails ==> (r.Found? <==> k in m)
    ensures r.Found? ==> k in m && r.value == m[k]
  {
    if fails then DbError else if k in m then Found(m[k]) else NotFound
  }

  /** Decoding a JSON body: the value, or the decoder's error message. */
  datatype Bind<T> = Bound(value: T) | BindError(message: string)

  datatype Body = NoBody | ErrorBody(message: string) | Record(device: Device)

  datatype Response = Response(status: int, body: Body)

  // ---------------------------------------------------------------------
  // UpdateDevice
  // ---------------------------------------------------------------------

  /**
   * Apply an update to a stored device: strings only when given, the
   * organization only when not nil, symmetric NAT always.
   */
  function MergeUpdate(d: Device, req: UpdateRequest): (r: Device)
    ensures r.endpointLocalAddressIPv4 == if req.endpointLocalAddressIPv4 != "" then req.endpointLocalAddressIPv4
                                          else d.endpointLocalAddressIPv4
    ensures r.hostname == if req.hostname != "" then req.hostname else d.hostname
    ensures r.localIp == if req.localIp != "" then req.localIp else d.localIp
    ensures r.organizationId == if req.organizationId != NilUuid then req.organizationId else d.organizationId
    ensures r.reflexiveIPv4 == if req.reflexiveIPv4 != "" then req.reflexiveIPv4 else d.reflexiveIPv4
    ensures r.symmetricNat == req.symmetricNat
    // every other field is left alone
    ensures r.id == d.id && r.userId == d.userId && r.publicKey == d.publicKey
    ensures r.allowedIps == d.allowedIps && r.tunnelIp == d.tunnelIp && r.childPrefix == d.childPrefix
    ensures r.relay == d.relay && r.organizationPrefix == d.organizationPrefix
  {
    d.(endpointLocalAddressIPv4 := if req.endpointLocalAddressIPv4 != "" then req.endpointLocalAddressIPv4
                                   else d.endpointLocalAddressIPv4,
       hostname := if req.hostname != "" then req.hostname else d.hostname,
       localIp := if req.localIp != "" then req.localIp else d.localIp,
       organizationId := if req.organizationId != NilUuid then req.organizationId else d.organizationId,
       reflexiveIPv4 := if req.reflexiveIPv4 != "" then req.reflexiveIPv4 else d.reflexiveIPv4,
       // the source assigns it only when it differs, which ends the same
       symmetricNat := req.symmetricNat)
  }

  /** The response, and the record handed to the database's save, if any. */
  datatype UpdateOutcome = UpdateOutcome(response: Response, saved: Option<Device>)

  /**
   * PUT /devices/{id}. `id` is None when the path parameter is not a UUID;
   * `lookupFails` is a database error other than "not found".
   */
  function UpdateDevice(id: Option<Uuid>, body: Bind<UpdateRequest>, devices: map<Uuid, Device>,
                        lookupFails: bool): (r: UpdateOutcome)
    // an invalid id is refused before the body is read
    ensures id.None? ==> r == UpdateOutcome(Response(StatusBadRequest, ErrorBody("id is not valid")), None)
    ensures id.Some? && body.BindError? ==>
              r == UpdateOutcome(Response(StatusBadRequest, ErrorBody(body.message)), None)
    ensures id.Some? && body.Bound? && !lookupFails && id.value !in devices ==>
              r == UpdateOutcome(Response(StatusNotFound, NoBody), None)
    // a found device is merged, saved and returned
    ensures id.Some? && body.Bound? && !lookupFails && id.value in devices ==>
              && r.response.status == StatusOK
              && r.saved == Some(MergeUpdate(devices[id.value], body.value))
              && r.response.body == Record(r.saved.value)
    // any other lookup error is not checked: the zero record is merged and saved
    ensures id.Some? && body.Bound? && lookupFails ==>
              && r.response.status == StatusOK
              && r.saved == Some(MergeUpdate(ZeroDevice, body.value))
              && r.response.body == Record(r.saved.value)
    ensures r.response.status == StatusOK <==> r.saved.Some?
  {
    if id.None? then UpdateOutcome(Response(StatusBadRequest, ErrorBody("id is not valid")), None)
    else if body.BindError? then UpdateOutcome(Response(StatusBadRequest, ErrorBody(body.message)), None)
    else
      match Find(devices, id.value, lookupFails)
      case NotFound => UpdateOutcome(Response(StatusNotFound, NoBody), None)
      case Found(d) =>
        var merged := MergeUpdate(d, body.value);
        UpdateOutcome(Response(StatusOK, Record(merged)), Some(merged))
      case DbError =>
        var merged := MergeUpdate(ZeroDevice, body.value);
        UpdateOutcome(Response(StatusOK, Record(merged)), Some(merged))
  }

  // ---------------------------------------------------------------------
  // CreateDevice
  // ---------------------------------------------------------------------

  /** The tables and failure flags CreateDevice reads. */
  datatype Store = Store(
    users: map<string, User>,
    organizations: map<Uuid, Organization>,
    devicesByKey: map<string, Device>)

  datatype Faults = Faults(
    userLookup: bool,
    organizationLookup: bool,
    keyLookup: bool,
    create: bool,
    commit: bool)

  /**
   * IPAM's answers: the address taken from the pool (None on error) and the
   * child prefixes whose assignment fails.
   */
  datatype Ipam = Ipam(poolAddress: Option<string>, failingPrefixes: set<string>)

  /**
   * The prefix a new device routes: its address as a /32 host route, unless
   * it is a relay or the address does not parse as an IP.
   */
  function HostPrefix(ipamIP: string, relay: bool, isIP: string -> bool): (h: string)
    ensures isIP(ipamIP) && !relay ==> h == ipamIP + "/32"
    ensures !(isIP(ipamIP) && !relay) ==> h == ipamIP
  {
    if isIP(ipamIP) && !relay then ipamIP + "/32" else ipamIP
  }

  /**
   * The child prefixes CreateDevice asks IPAM for, as written: the loop runs
   * over the record the public-key lookup filled in. On the only path that
   * reaches the loop the lookup found nothing, so that record is the zero
   * device and the request's prefixes are never assigned.
   */
  function ChildPrefixesToAssignAsWritten(keyLookup: Lookup<Device>): (ps: seq<string>)
    ensures keyLookup.Found? ==> ps == keyLookup.value.childPrefix
    ensures !keyLookup.Found? ==> ps == []
  {
    match keyLookup
    case Found(d) => d.childPrefix
    case _ => ZeroDevice.childPrefix
  }

  /** Whether `o` is among the user's organizations. */
  predicate IsMember(u: User, o: Uuid)
  {
    exists i :: 0 <= i < |u.organizations| && u.organizations[i] == o
  }

  /** The membership loop of CreateDevice over the user's organizations. */
  function Permitted(orgs: seq<Uuid>, o: Uuid): (p: bool)
    ensures p <==> exists i :: 0 <= i < |orgs| && orgs[i] == o
    decreases |orgs|
  {
    if |orgs| == 0 then false
    else Permitted(orgs[..|orgs| - 1], o) || orgs[|orgs| - 1] == o
  }

  /** The organization CreateDevice goes on with; None answers 404. */
  function OrganizationOf(store: Store, faults: Faults, req: AddRequest): (r: Option<Organization>)
    ensures !faults.organizationLookup ==>
              (r.Some? <==> req.organizationId in store.organizations)
              && (r.Some? ==> r.value == store.organizations[req.organizationId])
    ensures faults.organizationLookup ==> r == Some(ZeroOrganization)
  {
    match Find(store.organizations, req.organizationId, faults.organizationLookup)
    case Found(o) => Some(o)
    case NotFound => None
    // only "not found" is checked; other errors go on with the zero record
    case DbError => Some(ZeroOrganization)
  }

  /** The new device record, once every check has passed. */
  function NewDevice(newId: Uuid, user: User, org: Organization, req: AddRequest, ipamIP: string,
                     isIP: string -> bool): (d: Device)
    ensures d.id == newId && d.userId == user.id && d.organizationId == org.id
    ensures d.publicKey == req.publicKey
    ensures d.allowedIps == [HostPrefix(ipamIP, req.relay && org.hubZone, isIP)]
    ensures d.tunnelIp == ipamIP && d.organizationPrefix == org.ipCidr
    // the stored relay flag is the request's, not the hub-zone-qualified one
    ensures d.relay == req.relay
    ensures d.childPrefix == req.childPrefix
    ensures d.localIp == req.localIp && d.reflexiveIPv4 == req.reflexiveIPv4
    ensures d.endpointLocalAddressIPv4 == req.endpointLocalAddressIPv4
    ensures d.symmetricNat == req.symmetricNat && d.hostname == req.hostname
  {
    var relay := req.relay && org.hubZone;
    Device(newId, user.id, org.id, req.publicKey, req.localIp, [HostPrefix(ipamIP, relay, isIP)], ipamIP,
           req.childPrefix, req.relay, org.ipCidr, req.reflexiveIPv4, req.endpointLocalAddressIPv4,
           req.symmetricNat, req.hostname)
  }

  datatype CreateOutcome = CreateOutcome(response: Response, created: Option<Device>)

  function Fail(status: int, message: string): CreateOutcome
  {
    CreateOutcome(Response(status, ErrorBody(message)), None)
  }

  /** A create request that passes the checks made before any lookup. */
  predicate WellFormed(body: Bind<AddRequest>)
  {
    body.Bound? && body.value.publicKey != ""
  }

  /**
   * The request reaches the membership check: well formed, the user and the
   * organization found, and no device holds its public key.
   */
  predicate ReachesMembership(body: Bind<AddRequest>, userId: string, store: Store, faults: Faults)
  {
    && WellFormed(body)
    && Find(store.users, userId, faults.userLookup).Found?
    && OrganizationOf(store, faults, body.value).Some?
    && Find(store.devicesByKey, body.value.publicKey, faults.keyLookup).NotFound?
  }

  /**
   * POST /devices, on behalf of `userId`. `newId` is the id the database
   * gives the new record and `isIP` stands for Go's `net.ParseIP` succeeding.
   * `asWritten` assigns the child prefixes of the key lookup's record, as the
   * source does; otherwise the request's own child prefixes are assigned.
   */
  function CreateDevice(body: Bind<AddRequest>, userId: string, store: Store, faults: Faults, ipam: Ipam,
                        isIP: string -> bool, newId: Uuid, asWritten: bool): (r: CreateOutcome)
    ensures body.BindError? ==> r == Fail(StatusBadRequest, body.message)
    // an empty public key is refused before any lookup
    ensures body.Bound? && body.value.publicKey == "" ==>
              r == Fail(StatusBadRequest, "the request did not contain a valid public key")
    ensures WellFormed(body) && !Find(store.users, userId, faults.userLookup).Found? ==>
              r == Fail(StatusInternalServerError, "user not found")
    ensures WellFormed(body) && Find(store.users, userId, faults.userLookup).Found?
            && OrganizationOf(store, faults, body.value).None? ==>
              r == Fail(StatusNotFound, "organization not found")
    // a device with the same public key is a conflict, answered with that device
    ensures && WellFormed(body) && Find(store.users, userId, faults.userLookup).Found?
            && OrganizationOf(store, faults, body.value).Some?
            && Find(store.devicesByKey, body.value.publicKey, faults.keyLookup).Found? ==>
              r == CreateOutcome(Response(StatusConflict, Record(store.devicesByKey[body.value.publicKey])), None)
    // any other error of the key lookup is a 500, before the membership check
    ensures && WellFormed(body) && Find(store.users, userId, faults.userLookup).Found?
            && OrganizationOf(store, faults, body.value).Some?
            && Find(store.devicesByKey, body.value.publicKey, faults.keyLookup).DbError? ==>
              r == Fail(StatusInternalServerError, "database error")
    // past the conflict check, 403 exactly when the user is not in the organization
    ensures ReachesMembership(body, userId, store, faults) ==>
              (r.response.status == StatusForbidden <==> !IsMember(store.users[userId], body.value.organizationId))
    // success: the new device, built from the request, the organization and the pool address
    ensures r.response.status == StatusCreated <==> r.created.Some?
    ensures r.created.Some? ==>
              && ReachesMembership(body, userId, store, faults)
              && IsMember(store.users[userId], body.value.organizationId)
              && ipam.poolAddress.Some?
              && (!asWritten ==> forall p :: p in body.value.childPrefix ==> p !in ipam.failingPrefixes)
              && !faults.create && !faults.commit
              && r.response.body == Record(r.created.value)
              && r.created.value == NewDevice(newId, store.users[userId],
                                              OrganizationOf(store, faults, body.value).value,
                                              body.value, ipam.poolAddress.value, isIP)
    // a member whose address IPAM cannot give gets a 500
    ensures && ReachesMembership(body, userId, store, faults)
            && IsMember(store.users[userId], body.value.organizationId)
            && ipam.poolAddress.None? ==>
              r == Fail(StatusInternalServerError, "failed to request ipam address")
    // corrected: a requested child prefix IPAM refuses fails the request
    ensures && !asWritten
            && ReachesMembership(body, userId, store, faults)
            && IsMember(store.users[userId], body.value.organizationId)
            && ipam.poolAddress.Some?
            && (exists p :: p in body.value.childPrefix && p in ipam.failingPrefixes) ==>
              r == Fail(StatusInternalServerError, "failed to assign child prefix")
    // as written, no child prefix is ever assigned, so none can fail the request
    ensures asWritten ==> r != Fail(StatusInternalServerError, "failed to assign child prefix")
    // a failed create or commit, once every earlier step passed, is a 500
    ensures && ReachesMembership(body, userId, store, faults)
            && IsMember(store.users[userId], body.value.organizationId)
            && ipam.poolAddress.Some?
            && (asWritten || forall p :: p in body.value.childPrefix ==> p !in ipam.failingPrefixes)
            && (faults.create || faults.commit) ==>
              r == Fail(StatusInternalServerError, "database error")
    ensures ReachesMembership(body, userId, store, faults)
            && IsMember(store.users[userId], body.value.organizationId)
            && ipam.poolAddress.Some?
            && (asWritten || forall p :: p in body.value.childPrefix ==> p !in ipam.failingPrefixes)
            && !faults.create && !faults.commit
            ==> r.created.Some?
  {
    if body.BindError? then Fail(StatusBadRequest, body.message)
    else
      var req := body.value;
      if req.publicKey == "" then Fail(StatusBadRequest, "the request did not contain a valid public key")
      else
        match Find(store.users, userId, faults.userLookup)
        case NotFound => Fail(StatusInternalServerError, "user not found")
        case DbError => Fail(StatusInternalServerError, "user not found")
        case Found(user) =>
          match OrganizationOf(store, faults, req)
          case None => Fail(StatusNotFound, "organization not found")
          case Some(org) =>
            var keyLookup := Find(store.devicesByKey, req.publicKey, faults.keyLookup);
            match keyLookup
            case Found(existing) => CreateOutcome(Response(StatusConflict, Record(existing)), None)
            case DbError => Fail(StatusInternalServerError, "database error")
            case NotFound =>
              if !Permitted(user.organizations, req.organizationId) then
                Fail(StatusForbidden, "user is not a member of organization")
              else
                // the record the key lookup leaves behind is the zero device, whose
                // tunnel address is "": the address always comes from the pool
                match ipam.poolAddress
                case None => Fail(StatusInternalServerError, "failed to request ipam address")
                case Some(ipamIP) =>
                  // as written, the lookup's (empty) record's prefixes; corrected, the request's
                  var toAssign := if asWritten then ChildPrefixesToAssignAsWritten(keyLookup) else req.childPrefix;
                  if exists p :: p in toAssign && p in ipam.failingPrefixes then
                    Fail(StatusInternalServerError, "failed to assign child prefix")
                  else
                    var device := NewDevice(newId, user, org, req, ipamIP, isIP);
                    if faults.create then Fail(StatusInternalServerError, "database error")
                    else if faults.commit then Fail(StatusInternalServerError, "database error")
                    else CreateOutcome(Response(StatusCreated, Record(device)), Some(device))
  }

  // ---------------------------------------------------------------------
  // DeleteDevice
  // ---------------------------------------------------------------------

  /** A request to give an address or a prefix back to IPAM. */
  datatype Release =
    | PoolRelease(organizationId: Uuid, address: string, prefix: string)
    | PrefixRelease(organizationId: Uuid, prefix: string)

  /** The releases a deleted device calls for, in the order they are made. */
  function ReleasePlan(d: Device): (plan: seq<Release>)
    // the pool lease is given back exactly when both address and prefix are known
    ensures (exists i :: 0 <= i < |plan| && plan[i].PoolRelease?) <==> d.tunnelIp != "" && d.organizationPrefix != ""
    ensures d.tunnelIp != "" && d.organizationPrefix != "" ==>
              plan[0] == PoolRelease(d.organizationId, d.tunnelIp, d.organizationPrefix)
    // then every child prefix, in order
    ensures |plan| == (if d.tunnelIp != "" && d.organizationPrefix != "" then 1 else 0) + |d.childPrefix|
    ensures forall j :: 0 <= j < |d.childPrefix| ==>
              plan[|plan| - |d.childPrefix| + j] == PrefixRelease(d.organizationId, d.childPrefix[j])
  {
    var pool := if d.tunnelIp != "" && d.organizationPrefix != ""
                then [PoolRelease(d.organizationId, d.tunnelIp, d.organizationPrefix)] else [];
    var rest := PrefixReleases(d.organizationId, d.childPrefix);
    var plan := pool + rest;
    assert forall j :: |pool| <= j < |plan| ==> plan[j] == rest[j - |pool|] && plan[j].PrefixRelease?;
    assert |pool| == 1 ==> plan[0].PoolRelease?;
    plan
  }

  function PrefixReleases(org: Uuid, prefixes: seq<string>): (rs: seq<Release>)
    ensures |rs| == |prefixes|
    ensures forall j :: 0 <= j < |prefixes| ==> rs[j] == PrefixRelease(org, prefixes[j])
    decreases |prefixes|
  {
    if |prefixes| == 0 then []
    else PrefixReleases(org, prefixes[..|prefixes| - 1]) + [PrefixRelease(org, prefixes[|prefixes| - 1])]
  }

  datatype DeleteOutcome = DeleteOutcome(response: Response, devices: map<Uuid, Device>, releases: seq<Release>)

  /**
   * The response after the releases: the first error written wins, so any
   * failed release answers 500.
   */
  function AfterReleases(record: Device, plan: seq<Release>, failingReleases: set<Release>): (r: Response)
    ensures r.status == StatusInternalServerError <==> exists i :: 0 <= i < |plan| && plan[i] in failingReleases
    ensures r.status != StatusInternalServerError ==> r == Response(StatusOK, Record(record))
  {
    if exists i :: 0 <= i < |plan| && plan[i] in failingReleases then
      Response(StatusInternalServerError, ErrorBody("failed to release"))
    else Response(StatusOK, Record(record))
  }

  /**
   * DELETE /devices/{id} as written: the record whose address and prefixes
   * are released is a fresh one holding only the id, so nothing is released.
   */
  function DeleteDeviceAsWritten(id: Option<Uuid>, devices: map<Uuid, Device>, deleteError: Option<string>,
                                 failingReleases: set<Release>): (r: DeleteOutcome)
    ensures id.None? ==> r == DeleteOutcome(Response(StatusBadRequest, ErrorBody("device id is not valid")), devices, [])
    ensures id.Some? && deleteError.Some? ==>
              r == DeleteOutcome(Response(StatusBadRequest, ErrorBody(deleteError.value)), devices, [])
    ensures id.Some? && deleteError.None? ==>
              && r.devices == devices - {id.value}
              // answered with the fresh record, which holds only the id
              && r.response == Response(StatusOK, Record(ZeroDevice.(id := id.value)))
    // nothing is ever given back to IPAM
    ensures r.releases == []
  {
    if id.None? then DeleteOutcome(Response(StatusBadRequest, ErrorBody("device id is not valid")), devices, [])
    else if deleteError.Some? then
      DeleteOutcome(Response(StatusBadRequest, ErrorBody(deleteError.value)), devices, [])
    else
      var record := ZeroDevice.(id := id.value);
      var plan := ReleasePlan(record);
      DeleteOutcome(AfterReleases(record, plan, failingReleases), devices - {id.value}, plan)
  }

  /**
   * DELETE /devices/{id}, releasing what the stored record holds: its pool
   * lease when both address and prefix are known, then its child prefixes.
   */
  function DeleteDevice(id: Option<Uuid>, devices: map<Uuid, Device>, deleteError: Option<string>,
                        failingReleases: set<Release>): (r: DeleteOutcome)
    ensures id.None? ==> r == DeleteOutcome(Response(StatusBadRequest, ErrorBody("device id is not valid")), devices, [])
    ensures id.Some? && deleteError.Some? ==>
              r == DeleteOutcome(Response(StatusBadRequest, ErrorBody(deleteError.value)), devices, [])
    ensures id.Some? && deleteError.None? ==>
              && r.devices == devices - {id.value}
              && id.value !in r.devices
              && (id.value in devices ==> r.releases == ReleasePlan(devices[id.value]))
              && (id.value !in devices ==> r.releases == [])
              && (r.response.status == StatusInternalServerError <==>
                    exists i :: 0 <= i < |r.releases| && r.releases[i] in failingReleases)
              // otherwise answered with the record that was deleted
              && (r.response.status != StatusInternalServerError ==>
                    r.response == Response(StatusOK, Record(if id.value in devices then devices[id.value]
                                                            else ZeroDevice.(id := id.value))))
  {
    if id.None? then DeleteOutcome(Response(StatusBadRequest, ErrorBody("device id is not valid")), devices, [])
    else if deleteError.Some? then
      DeleteOutcome(Response(StatusBadRequest, ErrorBody(deleteError.value)), devices, [])
    else
      var record := if id.value in devices then devices[id.value] else ZeroDevice.(id := id.value);
      var plan := ReleasePlan(record);
      DeleteOutcome(AfterReleases(record, plan, failingReleases), devices - {id.value}, plan)
  }
}

=== FILE: peer_map.dfy ===
/**
 * One pass of the agent over its device cache: every other peer's method is
 * re-decided, the WireGuard peer map is brought in line with the choices, and
 * the relay's AllowedIPs are widened with the prefixes of the peers that are
 * reached through it.
 *
 * Go's map iteration order is an input (`order`, a permutation of the cache
 * keys), and so is the healthy relay picked by that iteration (`relayKey`).
 */
module PeerMap {
  import opened Wrappers
  import opened Peering

  /** The cache is keyed by each device's public key. */
  predicate KeyedByPublicKey(cache: map<string, CacheEntry>)
  {
    forall k :: k in cache ==> cache[k].device.publicKey == k
  }

  /** Every cached index is -1 or a position in the method list. */
  predicate AllValid(cache: map<string, CacheEntry>)
  {
    forall k :: k in cache ==> ValidIndex(cache[k].peeringMethodIndex)
  }

  /** `order` visits every key of `cache` exactly once. */
  predicate IsIterationOrder(order: seq<string>, cache: map<string, CacheEntry>)
  {
    && (forall i, j :: 0 <= i < j < |order| ==> order[i] != order[j])
    && (forall i :: 0 <= i < |order| ==> order[i] in cache)
    && (forall k :: k in cache ==> k in order)
  }

  predicate IsHealthyRelay(e: CacheEntry)
  {
    e.device.relay && e.peerHealthy
  }

  /** `relayKey` is some healthy relay of the cache, or None when there is none. */
  predicate HealthyRelayChoice(cache: map<string, CacheEntry>, relayKey: Option<string>)
  {
    match relayKey
    case Some(k) => k in cache && IsHealthyRelay(cache[k])
    case None => forall k :: k in cache ==> !IsHealthyRelay(cache[k])
  }

  /** The rebuild of the peer cached under `k`. */
  function Outcome(node: Node, cache: map<string, CacheEntry>, k: string, healthyRelay: bool,
                   sameReflexive: set<string>, now: int): Rebuilt
    requires k in cache && ValidIndex(cache[k].peeringMethodIndex)
  {
    RebuildPeerConfig(node, cache[k], healthyRelay, k in sameReflexive, now)
  }

  /**
   * The prefixes to route through the relay, gathered in iteration order from
   * every peer but the node itself.
   */
  function Collected(node: Node, cache: map<string, CacheEntry>, order: seq<string>, healthyRelay: bool,
                     sameReflexive: set<string>, now: int): seq<string>
    requires AllValid(cache)
    requires forall i :: 0 <= i < |order| ==> order[i] in cache
    decreases |order|
  {
    if |order| == 0 then []
    else
      var k := order[|order| - 1];
      Collected(node, cache, order[..|order| - 1], healthyRelay, sameReflexive, now)
        + (if k == node.wireguardPubKey then []
           else Outcome(node, cache, k, healthyRelay, sameReflexive, now).peer.allowedIPsForRelay)
  }

  /** The relay's AllowedIPs: the VPC's two prefixes, then the collected ones. */
  function RelayAllowedIPs(vpc: Vpc, collected: seq<string>): (r: seq<string>)
    ensures |r| == |collected| + 2 && r[..2] == RelayAllowedIP(vpc) && r[2..] == collected
  {
    [vpc.ipv4Cidr, vpc.ipv6Cidr] + collected
  }

  /** The relay's AllowedIPs as the source writes them: the IPv4 prefix twice. */
  function RelayAllowedIPsAsWritten(vpc: Vpc, collected: seq<string>): (r: seq<string>)
    ensures |r| == |collected| + 2 && r[..2] == [vpc.ipv4Cidr, vpc.ipv4Cidr] && r[2..] == collected
  {
    [vpc.ipv4Cidr, vpc.ipv4Cidr] + collected
  }

  /** Both entries agree on `k`: present in both with one value, or in neither. */
  predicate PeersAgree(a: map<string, PeerConfig>, b: map<string, PeerConfig>, k: string)
  {
    && (k in a <==> k in b)
    && (k in a ==> a[k] == b[k])
  }

  /** No entry of the peer map carries prefixes meant for the relay. */
  predicate NoRelayPrefixesStored(peers: map<string, PeerConfig>)
  {
    forall k :: k in peers ==> peers[k].allowedIPsForRelay == []
  }

  /**
   * The list the relay's AllowedIPs are widened to: as the source writes it
   * (`asWritten`), or corrected to carry the IPv6 prefix.
   */
  function RelayAllowedIPsFor(vpc: Vpc, collected: seq<string>, asWritten: bool): seq<string>
  {
    if asWritten then RelayAllowedIPsAsWritten(vpc, collected) else RelayAllowedIPs(vpc, collected)
  }

  /** Widen the relay's entry once some peer is reached through it. */
  function WidenRelay(peers: map<string, PeerConfig>, relayKey: Option<string>, vpc: Vpc,
                      collected: seq<string>, asWritten: bool): (r: map<string, PeerConfig>)
    ensures relayKey.Some? && |collected| > 0 ==>
              var ips := RelayAllowedIPsFor(vpc, collected, asWritten);
              && r.Keys == peers.Keys + {relayKey.value}
              && r[relayKey.value].allowedIPs == ips
              && (relayKey.value in peers ==> r[relayKey.value] == peers[relayKey.value].(allowedIPs := ips))
              && (relayKey.value !in peers ==> r[relayKey.value] == EmptyPeer.(allowedIPs := ips))
    ensures forall k :: !(relayKey == Some(k) && |collected| > 0) ==> PeersAgree(r, peers, k)
    ensures NoRelayPrefixesStored(peers) ==> NoRelayPrefixesStored(r)
  {
    if relayKey.Some? && |collected| > 0 then
      var k := relayKey.value;
      var base := if k in peers then peers[k] else EmptyPeer;
      peers[k := base.(allowedIPs := RelayAllowedIPsFor(vpc, collected, asWritten))]
    else peers
  }

  /** What one visit does to the cache and the updated set, for the peer at `k`. */
  ghost predicate CacheApplied(node: Node, cache: map<string, CacheEntry>, k: string, healthyRelay: bool,
                               sameReflexive: set<string>, now: int,
                               newCache: map<string, CacheEntry>, updated: map<string, Peering.Device>)
    requires k in cache && AllValid(cache)
  {
    var o := Outcome(node, cache, k, healthyRelay, sameReflexive, now);
    k in newCache &&
    if k != node.wireguardPubKey && PeerConfigUpdated(node.peers, k, o.peer) then
      && k in updated && updated[k] == cache[k].device
      && newCache[k] == o.entry.(peeringMethod := o.methodName, peeringMethodIndex := o.methodIndex,
                                 peeringTime := now)
    else
      k !in updated && newCache[k] == cache[k]
  }

  /** What one visit does to the peer map, for the peer at `k`. */
  ghost predicate PeerApplied(node: Node, cache: map<string, CacheEntry>, k: string, healthyRelay: bool,
                              sameReflexive: set<string>, now: int, peers: map<string, PeerConfig>)
    requires k in cache && AllValid(cache)
  {
    var o := Outcome(node, cache, k, healthyRelay, sameReflexive, now);
    if k != node.wireguardPubKey && PeerConfigUpdated(node.peers, k, o.peer) then
      if o.methodName == ViaRelayName then k !in peers
      else k in peers && peers[k] == o.peer
    else
      PeersAgree(peers, node.peers, k)
  }

  /** Two states of the loop differ at most at key `k`. */
  ghost predicate ChangedOnlyAt(k: string,
                                p0: map<string, PeerConfig>, c0: map<string, CacheEntry>, u0: map<string, Peering.Device>,
                                p1: map<string, PeerConfig>, c1: map<string, CacheEntry>, u1: map<string, Peering.Device>)
  {
    && c1.Keys == c0.Keys
    && (forall k' :: k' != k ==> PeersAgree(p1, p0, k'))
    && (forall k' :: k' != k && k' in c0 ==> c1[k'] == c0[k'])
    && (forall k' :: k' != k ==> (k' in u1 <==> k' in u0))
    && (forall k' :: k' != k && k' in u0 ==> u1[k'] == u0[k'])
  }

  /** The state of the loop once the keys in `seen` have been visited. */
  ghost predicate Visited(node: Node, cache: map<string, CacheEntry>, seen: set<string>, healthyRelay: bool,
                          sameReflexive: set<string>, now: int,
                          peers: map<string, PeerConfig>, newCache: map<string, CacheEntry>,
                          updated: map<string, Peering.Device>)
    requires AllValid(cache)
  {
    && seen <= cache.Keys
    && newCache.Keys == cache.Keys
    && (forall k :: k in updated ==> k in seen && k != node.wireguardPubKey)
    && (forall k :: k in seen ==>
          && CacheApplied(node, cache, k, healthyRelay, sameReflexive, now, newCache, updated)
          && PeerApplied(node, cache, k, healthyRelay, sameReflexive, now, peers))
    && (forall k :: k in cache && k !in seen ==> newCache[k] == cache[k] && PeersAgree(peers, node.peers, k) && k !in updated)
    && (forall k :: k !in cache ==> PeersAgree(peers, node.peers, k))
  }

  /** Visiting one more key keeps the loop's state described by `Visited`. */
  lemma VisitedStep(node: Node, cache: map<string, CacheEntry>, seen: set<string>, k: string, healthyRelay: bool,
                    sameReflexive: set<string>, now: int,
                    p0: map<string, PeerConfig>, c0: map<string, CacheEntry>, u0: map<string, Peering.Device>,
                    p1: map<string, PeerConfig>, c1: map<string, CacheEntry>, u1: map<string, Peering.Device>)
    requires AllValid(cache) && k in cache && k !in seen
    requires Visited(node, cache, seen, healthyRelay, sameReflexive, now, p0, c0, u0)
    requires ChangedOnlyAt(k, p0, c0, u0, p1, c1, u1)
    requires CacheApplied(node, cache, k, healthyRelay, sameReflexive, now, c1, u1)
    requires PeerApplied(node, cache, k, healthyRelay, sameReflexive, now, p1)
    requires k in u1 ==> k != node.wireguardPubKey
    ensures Visited(node, cache, seen + {k}, healthyRelay, sameReflexive, now, p1, c1, u1)
  {
    forall k' | k' in seen
      ensures CacheApplied(node, cache, k', healthyRelay, sameReflexive, now, c1, u1)
      ensures PeerApplied(node, cache, k', healthyRelay, sameReflexive, now, p1)
    {
      assert k' != k;
      CacheAppliedFrame(node, cache, k', healthyRelay, sameReflexive, now, c0, u0, c1, u1);
      PeerAppliedFrame(node, cache, k', healthyRelay, sameReflexive, now, p0, p1);
    }
    forall k' | k' in cache && k' !in seen + {k}
      ensures c1[k'] == cache[k'] && PeersAgree(p1, node.peers, k') && k' !in u1
    {
      assert PeersAgree(p1, p0, k') && PeersAgree(p0, node.peers, k');
    }
    forall k' | k' !in cache
      ensures PeersAgree(p1, node.peers, k')
    {
      assert PeersAgree(p1, p0, k') && PeersAgree(p0, node.peers, k');
    }
  }

  /** CacheApplied at `k` depends only on the entries at `k`. */
  lemma CacheAppliedFrame(node: Node, cache: map<string, CacheEntry>, k: string, healthyRelay: bool,
                          sameReflexive: set<string>, now: int,
                          c0: map<string, CacheEntry>, u0: map<string, Peering.Device>,
                          c1: map<string, CacheEntry>, u1: map<string, Peering.Device>)
    requires k in cache && AllValid(cache)
    requires CacheApplied(node, cache, k, healthyRelay, sameReflexive, now, c0, u0)
    requires k in c1 && c1[k] == c0[k]
    requires (k in u1 <==> k in u0) && (k in u0 ==> u1[k] == u0[k])
    ensures CacheApplied(node, cache, k, healthyRelay, sameReflexive, now, c1, u1)
  {
  }

  /** PeerApplied at `k` depends only on the entry at `k`. */
  lemma PeerAppliedFrame(node: Node, cache: map<string, CacheEntry>, k: string, healthyRelay: bool,
                         sameReflexive: set<string>, now: int,
                         p0: map<string, PeerConfig>, p1: map<string, PeerConfig>)
    requires k in cache && AllValid(cache)
    requires PeerApplied(node, cache, k, healthyRelay, sameReflexive, now, p0)
    requires PeersAgree(p1, p0, k)
    ensures PeerApplied(node, cache, k, healthyRelay, sameReflexive, now, p1)
  {
  }

  /**
   * One iteration of the loop of buildPeersConfig: the peer at `k` is
   * rebuilt and, when its configuration changed, recorded. Returns the
   * prefixes this peer asks the relay to route.
   */
  method VisitPeer(node: Node, cache: map<string, CacheEntry>, k: string, healthyRelay: bool,
                   sameReflexive: set<string>, now: int,
                   peers: map<string, PeerConfig>, newCache: map<string, CacheEntry>,
                   updated: map<string, Peering.Device>)
    returns (peers': map<string, PeerConfig>, newCache': map<string, CacheEntry>,
             updated': map<string, Peering.Device>, forRelay: seq<string>)
    requires KeyedByPublicKey(cache) && AllValid(cache)
    requires k in cache && newCache.Keys == cache.Keys
    requires newCache[k] == cache[k] && PeersAgree(peers, node.peers, k) && k !in updated
    ensures newCache'.Keys == cache.Keys
    ensures CacheApplied(node, cache, k, healthyRelay, sameReflexive, now, newCache', updated')
    ensures PeerApplied(node, cache, k, healthyRelay, sameReflexive, now, peers')
    ensures forRelay == if k == node.wireguardPubKey then []
                        else Outcome(node, cache, k, healthyRelay, sameReflexive, now).peer.allowedIPsForRelay
    // nothing else changes
    ensures ChangedOnlyAt(k, peers, newCache, updated, peers', newCache', updated')
    ensures k in updated' ==> k != node.wireguardPubKey
  {
    peers', newCache', updated', forRelay := peers, newCache, updated, [];
    var d := newCache[k];
    // skip ourselves
    if d.device.publicKey == node.wireguardPubKey {
      return;
    }
    var o := RebuildPeerConfig(node, d, healthyRelay, k in sameReflexive, now);
    forRelay := o.peer.allowedIPsForRelay;
    if !PeerConfigUpdated(peers, d.device.publicKey, o.peer) {
      // the resulting peer configuration has not changed
      return;
    }
    updated' := updated[k := d.device];
    if o.methodName == ViaRelayName {
      // switching to the relay: no direct configuration for this peer
      if k in peers {
        peers' := peers - {k};
      }
    } else {
      peers' := peers[k := o.peer];
    }
    newCache' := newCache[k := o.entry.(peeringMethod := o.methodName, peeringMethodIndex := o.methodIndex,
                                        peeringTime := now)];
  }

  /**
   * A pass stores no relay prefixes in the peer map when none were there:
   * entries switching to via-relay are deleted rather than stored.
   */
  lemma {:induction false} VisitedStoresNoRelayPrefixes(node: Node, cache: map<string, CacheEntry>, healthyRelay: bool,
                                                        sameReflexive: set<string>, now: int,
                                                        peers: map<string, PeerConfig>, newCache: map<string, CacheEntry>,
                                                        updated: map<string, Peering.Device>)
    requires AllValid(cache)
    requires Visited(node, cache, cache.Keys, healthyRelay, sameReflexive, now, peers, newCache, updated)
    requires NoRelayPrefixesStored(node.peers)
    ensures NoRelayPrefixesStored(peers)
  {
    forall k | k in peers
      ensures peers[k].allowedIPsForRelay == []
    {
      if k in cache {
        assert PeerApplied(node, cache, k, healthyRelay, sameReflexive, now, peers);
        var o := Outcome(node, cache, k, healthyRelay, sameReflexive, now);
        if k != node.wireguardPubKey && PeerConfigUpdated(node.peers, k, o.peer) {
          RelayPrefixesOfRebuild(node, cache[k], healthyRelay, k in sameReflexive, now);
          assert o.methodName != ViaRelayName && peers[k] == o.peer;
        } else {
          assert PeersAgree(peers, node.peers, k);
        }
      } else {
        assert PeersAgree(peers, node.peers, k);
      }
    }
  }

  /** Visiting `order[i]` appends its prefixes to those gathered so far. */
  lemma CollectedStep(node: Node, cache: map<string, CacheEntry>, order: seq<string>, i: nat, healthyRelay: bool,
                      sameReflexive: set<string>, now: int)
    requires AllValid(cache)
    requires forall j :: 0 <= j < |order| ==> order[j] in cache
    requires i < |order|
    ensures Collected(node, cache, order[..i + 1], healthyRelay, sameReflexive, now)
            == Collected(node, cache, order[..i], healthyRelay, sameReflexive, now)
               + (if order[i] == node.wireguardPubKey then []
                  else Outcome(node, cache, order[i], healthyRelay, sameReflexive, now).peer.allowedIPsForRelay)
  {
    assert order[..i + 1][..i] == order[..i];
  }

  /** Visiting `order[i]` marks exactly one more position of a duplicate-free order as seen. */
  lemma SeenStep(order: seq<string>, i: nat, seen: set<string>)
    requires i < |order|
    requires forall a, b :: 0 <= a < b < |order| ==> order[a] != order[b]
    requires forall j :: 0 <= j < i ==> order[j] in seen
    requires forall j :: i <= j < |order| ==> order[j] !in seen
    ensures forall j :: 0 <= j < i + 1 ==> order[j] in seen + {order[i]}
    ensures forall j :: i + 1 <= j < |order| ==> order[j] !in seen + {order[i]}
  {
  }

  /**
   * One turn of the loop of buildPeersConfig: visit `order[i]`, a key not
   * seen yet, and extend the gathered relay prefixes with its own.
   */
  method VisitNext(node: Node, cache: map<string, CacheEntry>, order: seq<string>, i: nat, healthyRelay: bool,
                   sameReflexive: set<string>, now: int, ghost seen: set<string>,
                   peers: map<string, PeerConfig>, newCache: map<string, CacheEntry>,
                   updated: map<string, Peering.Device>, collected: seq<string>)
    returns (peers': map<string, PeerConfig>, newCache': map<string, CacheEntry>,
             updated': map<string, Peering.Device>, collected': seq<string>)
    requires KeyedByPublicKey(cache) && AllValid(cache)
    requires forall j :: 0 <= j < |order| ==> order[j] in cache
    requires i < |order| && order[i] !in seen
    requires Visited(node, cache, seen, healthyRelay, sameReflexive, now, peers, newCache, updated)
    requires collected == Collected(node, cache, order[..i], healthyRelay, sameReflexive, now)
    ensures Visited(node, cache, seen + {order[i]}, healthyRelay, sameReflexive, now, peers', newCache', updated')
    ensures collected' == Collected(node, cache, order[..i + 1], healthyRelay, sameReflexive, now)
  {
    var k := order[i];
    CollectedStep(node, cache, order, i, healthyRelay, sameReflexive, now);
    var forRelay;
    peers', newCache', updated', forRelay :=
      VisitPeer(node, cache, k, healthyRelay, sameReflexive, now, peers, newCache, updated);
    collected' := collected + forRelay;
    VisitedStep(node, cache, seen, k, healthyRelay, sameReflexive, now,
                peers, newCache, updated, peers', newCache', updated');
  }

  /** The loop of buildPeersConfig, visiting the cache in `order`. */
  method VisitAll(node: Node, cache: map<string, CacheEntry>, order: seq<string>, healthyRelay: bool,
                  sameReflexive: set<string>, now: int)
    returns (peers: map<string, PeerConfig>, newCache: map<string, CacheEntry>,
             updated: map<string, Peering.Device>, collected: seq<string>)
    requires KeyedByPublicKey(cache) && AllValid(cache)
    requires IsIterationOrder(order, cache)
    ensures Visited(node, cache, cache.Keys, healthyRelay, sameReflexive, now, peers, newCache, updated)
    ensures collected == Collected(node, cache, order, healthyRelay, sameReflexive, now)
  {
    peers := node.peers;
    newCache := cache;
    updated := map[];
    collected := [];
    ghost var seen: set<string> := {};
    var i := 0;
    while i < |order|
      invariant 0 <= i <= |order|
      invariant collected == Collected(node, cache, order[..i], healthyRelay, sameReflexive, now)
      invariant forall j :: 0 <= j < i ==> order[j] in seen
      invariant forall j :: i <= j < |order| ==> order[j] !in seen
      invariant Visited(node, cache, seen, healthyRelay, sameReflexive, now, peers, newCache, updated)
    {
      SeenStep(order, i, seen);
      peers, newCache, updated, collected :=
        VisitNext(node, cache, order, i, healthyRelay, sameReflexive, now, seen, peers, newCache, updated, collected);
      seen := seen + {order[i]};
      i := i + 1;
    }
    assert order[..i] == order;
    assert seen == cache.Keys;
  }

  /**
   * Widening the relay after the loop leaves every other peer's entry as the
   * loop applied it, and every key outside the cache as it was.
   */
  lemma WidenedPeersApplied(node: Node, cache: map<string, CacheEntry>, healthyRelay: bool,
                            sameReflexive: set<string>, now: int, loopPeers: map<string, PeerConfig>,
                            newCache: map<string, CacheEntry>, updated: map<string, Peering.Device>,
                            relayKey: Option<string>, collected: seq<string>, asWritten: bool)
    requires AllValid(cache)
    requires Visited(node, cache, cache.Keys, healthyRelay, sameReflexive, now, loopPeers, newCache, updated)
    requires relayKey.Some? ==> relayKey.value in cache
    ensures var peers := WidenRelay(loopPeers, relayKey, node.vpc, collected, asWritten);
            && (forall k :: k in cache && !(relayKey == Some(k) && |collected| > 0) ==>
                  PeerApplied(node, cache, k, healthyRelay, sameReflexive, now, peers))
            && (forall k :: k !in cache ==> PeersAgree(peers, node.peers, k))
  {
    var peers := WidenRelay(loopPeers, relayKey, node.vpc, collected, asWritten);
    forall k | k !in cache
      ensures PeersAgree(peers, node.peers, k)
    {
      assert PeersAgree(peers, loopPeers, k) && PeersAgree(loopPeers, node.peers, k);
    }
    forall k | k in cache && !(relayKey == Some(k) && |collected| > 0)
      ensures PeerApplied(node, cache, k, healthyRelay, sameReflexive, now, peers)
    {
      PeerAppliedFrame(node, cache, k, healthyRelay, sameReflexive, now, loopPeers, peers);
    }
  }

  /**
   * buildPeersConfig, peer-map part: returns the new peer map, the new cache
   * and the devices whose configuration changed. `asWritten` widens the relay
   * with the list as the source writes it; otherwise with the corrected list.
   */
  method BuildPeersConfig(node: Node, cache: map<string, CacheEntry>, order: seq<string>,
                          relayKey: Option<string>, sameReflexive: set<string>, now: int, asWritten: bool)
    returns (peers: map<string, PeerConfig>, newCache: map<string, CacheEntry>,
             updated: map<string, Peering.Device>)
    requires KeyedByPublicKey(cache) && AllValid(cache)
    requires IsIterationOrder(order, cache)
    requires HealthyRelayChoice(cache, relayKey)
    ensures newCache.Keys == cache.Keys
    // the node itself is skipped, and only changed peers are reported
    ensures forall k :: k in updated ==> k in cache && k != node.wireguardPubKey
    ensures forall k :: k in cache ==>
              CacheApplied(node, cache, k, relayKey.Some?, sameReflexive, now, newCache, updated)
    // every peer other than the widened relay gets exactly its own entry
    ensures var collected := Collected(node, cache, order, relayKey.Some?, sameReflexive, now);
            forall k :: k in cache && !(relayKey == Some(k) && |collected| > 0) ==>
              PeerApplied(node, cache, k, relayKey.Some?, sameReflexive, now, peers)
    ensures forall k :: k !in cache ==> PeersAgree(peers, node.peers, k)
    // the relay routes the VPC and every prefix reached through it (as written, the IPv4 prefix twice)
    ensures var collected := Collected(node, cache, order, relayKey.Some?, sameReflexive, now);
            relayKey.Some? && |collected| > 0 ==>
              && relayKey.value in peers
              && (!asWritten ==> peers[relayKey.value].allowedIPs == RelayAllowedIPs(node.vpc, collected))
              && (asWritten ==> peers[relayKey.value].allowedIPs == RelayAllowedIPsAsWritten(node.vpc, collected))
    // the node's own key is never added, unless it is the relay being widened
    ensures (node.wireguardPubKey !in node.peers && relayKey != Some(node.wireguardPubKey))
              ==> node.wireguardPubKey !in peers
    // entries hold no prefixes for the relay: those only ever widen the relay's AllowedIPs
    ensures NoRelayPrefixesStored(node.peers) ==> NoRelayPrefixesStored(peers)
  {
    var collected;
    ghost var loopPeers;
    peers, newCache, updated, collected := VisitAll(node, cache, order, relayKey.Some?, sameReflexive, now);
    loopPeers := peers;
    if NoRelayPrefixesStored(node.peers) {
      VisitedStoresNoRelayPrefixes(node, cache, relayKey.Some?, sameReflexive, now, loopPeers, newCache, updated);
    }
    WidenedPeersApplied(node, cache, relayKey.Some?, sameReflexive, now, loopPeers, newCache, updated,
                        relayKey, collected, asWritten);
    peers := WidenRelay(peers, relayKey, node.vpc, collected, asWritten);
  }
}

=== FILE: peering.dfy ===
/**
 * The per-peer WireGuard peering-method selection of the Nexodus agent.
 *
 * An agent tries a fixed, ordered list of seven ways to reach each peer.
 * Every peer's cache entry remembers the method in use (name and position in
 * the list, -1 after a reset). When the method in use has failed, the agent
 * moves on to the next method whose prerequisites hold, and starts over from
 * the top of the list once nothing later is left.
 *
 * Time is an integer count of nanoseconds (Go's `time.Duration` unit), and
 * 0 stands for Go's zero `time.Time`.
 */
module Peering {
  import opened Wrappers

  /** One second, in nanoseconds. */
  const Second: int := 1_000_000_000
  /** How long a freshly chosen method may take to come up. */
  const PeeringTimeout: int := 30 * Second
  /** How long a method that once worked may take to come back up. */
  const PeeringRestoreTimeout: int := 180 * Second
  /** Go's zero `time.Time`. */
  const ZeroTime: int := 0

  /** The seven peering methods, in order of preference. */
  datatype Method =
    | RelaySelfDirectLocal
    | RelaySelf
    | RelayPeerDirectLocal
    | RelayPeer
    | DirectLocal
    | Reflexive
    | ViaRelay

  const Methods: seq<Method> :=
    [RelaySelfDirectLocal, RelaySelf, RelayPeerDirectLocal, RelayPeer, DirectLocal, Reflexive, ViaRelay]

  /** Position of the last method (via-relay) in `Methods`. */
  const LastIndex: int := 6

  /** The method name stored in a cache entry after a reset. */
  const NoneName: string := "none"
  const ViaRelayName: string := "via-relay"

  function Name(m: Method): string
  {
    match m
    case RelaySelfDirectLocal => "relay-node-self-direct-local"
    case RelaySelf => "relay-node-self"
    case RelayPeerDirectLocal => "relay-node-peer-direct-local"
    case RelayPeer => "relay-node-peer"
    case DirectLocal => "direct-local"
    case Reflexive => "reflexive"
    case ViaRelay => ViaRelayName
  }

  /** A peer index is -1 (reset) or a position in `Methods`. */
  predicate ValidIndex(i: int)
  {
    -1 <= i <= LastIndex
  }

  // ---------------------------------------------------------------------
  // Data model
  // ---------------------------------------------------------------------

  /** An endpoint a device advertised, tagged with where it was learned. */
  datatype Endpoint = Endpoint(source: string, address: string)

  /** The part of the controller's device record the agent peers with. */
  datatype Device = Device(
    publicKey: string,
    allowedIps: seq<string>,
    advertiseCidrs: seq<string>,
    endpoints: seq<Endpoint>,
    relay: bool,
    symmetricNat: bool)

  /** One WireGuard peer section of the agent's configuration. */
  datatype PeerConfig = PeerConfig(
    publicKey: string,
    endpoint: string,
    allowedIPs: seq<string>,
    allowedIPsForRelay: seq<string>,
    persistentKeepAlive: int)

  /** Go's zero `wgPeerConfig`, read when the peer map has no entry. */
  const EmptyPeer: PeerConfig := PeerConfig("", "", [], [], 0)

  /** The agent's per-peer cache entry. */
  datatype CacheEntry = CacheEntry(
    device: Device,
    peeringMethod: string,
    peeringMethodIndex: int,
    peeringTime: int,
    peerHealthy: bool,
    peerHealthyTime: int,
    lastTxBytes: int,
    lastRxBytes: int,
    lastHandshakeTime: int,
    lastHandshake: string,
    lastRefresh: int)

  datatype Vpc = Vpc(ipv4Cidr: string, ipv6Cidr: string)

  /** The agent state the selection reads: its own role and its peer map. */
  datatype Node = Node(
    relay: bool,
    symmetricNat: bool,
    wireguardPubKey: string,
    vpc: Vpc,
    peers: map<string, PeerConfig>,
    persistentKeepalive: int)

  /** The facts the prerequisites of the methods are decided on. */
  datatype Flags = Flags(
    selfRelay: bool,
    peerRelay: bool,
    sameReflexive: bool,
    selfSymmetricNat: bool,
    peerSymmetricNat: bool,
    healthyRelay: bool)

  /**
   * `sameReflexive` says whether the peer's reflexive address has the same
   * host as this node's reflexive address; address parsing is not modelled.
   */
  function FlagsOf(node: Node, device: Device, sameReflexive: bool, healthyRelay: bool): (f: Flags)
    ensures f.selfRelay == node.relay && f.peerRelay == device.relay
    ensures f.selfSymmetricNat == node.symmetricNat && f.peerSymmetricNat == device.symmetricNat
    ensures f.sameReflexive == sameReflexive && f.healthyRelay == healthyRelay
  {
    Flags(node.relay, device.relay, sameReflexive, node.symmetricNat, device.symmetricNat, healthyRelay)
  }

  /** Whether method `m` is available for a peer. */
  predicate Prereq(m: Method, f: Flags): (r: bool)
    // a relay node peers only as the relay; otherwise a relay peer is only reached as a relay
    ensures r ==> (f.selfRelay <==> m == RelaySelfDirectLocal || m == RelaySelf)
    ensures r && !f.selfRelay ==> (f.peerRelay <==> RoutesVpc(m))
    // and those methods are open to them: the direct-local one on the same reflexive address
    ensures f.selfRelay ==> (r <==> m == RelaySelf || (m == RelaySelfDirectLocal && f.sameReflexive))
    ensures !f.selfRelay && f.peerRelay ==> (r <==> m == RelayPeer || (m == RelayPeerDirectLocal && f.sameReflexive))
    // the local endpoint needs the same reflexive address, the relay a healthy one
    ensures r && UsesLocalEndpoint(m) ==> f.sameReflexive
    ensures r && m == ViaRelay ==> f.healthyRelay
    // the plain methods are open between two ordinary nodes on their own conditions
    ensures !f.selfRelay && !f.peerRelay ==>
              && (m == DirectLocal ==> (r <==> f.sameReflexive))
              && (m == Reflexive ==> (r <==> !f.peerSymmetricNat && !f.selfSymmetricNat))
              && (m == ViaRelay ==> (r <==> f.healthyRelay))
  {
    match m
    case RelaySelfDirectLocal => f.selfRelay && f.sameReflexive
    case RelaySelf => f.selfRelay
    case RelayPeerDirectLocal => !f.selfRelay && f.peerRelay && f.sameReflexive
    case RelayPeer => !f.selfRelay && f.peerRelay
    case DirectLocal => !f.selfRelay && !f.peerRelay && f.sameReflexive
    case Reflexive => !f.selfRelay && !f.peerRelay && !f.peerSymmetricNat && !f.selfSymmetricNat
    case ViaRelay => !f.selfRelay && !f.peerRelay && f.healthyRelay
  }

  /** Methods that reach the peer on its local (same-site) endpoint. */
  predicate UsesLocalEndpoint(m: Method)
  {
    m == RelaySelfDirectLocal || m == RelayPeerDirectLocal || m == DirectLocal
  }

  /** Methods whose peer is the relay, so it routes the whole VPC. */
  predicate RoutesVpc(m: Method)
  {
    m == RelayPeerDirectLocal || m == RelayPeer
  }

  /** The AllowedIPs given to a relay peer. */
  function RelayAllowedIP(vpc: Vpc): seq<string>
  {
    [vpc.ipv4Cidr, vpc.ipv6Cidr]
  }

  // ---------------------------------------------------------------------
  // Peer configuration builders
  // ---------------------------------------------------------------------

  /** Whether endpoint `e` was learned from a local source. */
  predicate IsLocal(e: Endpoint)
  {
    e.source == "local"
  }

  /** `eps[i]` is the last endpoint whose locality is `local`. */
  predicate IsLastOfKind(eps: seq<Endpoint>, i: int, local: bool)
  {
    && 0 <= i < |eps|
    && IsLocal(eps[i]) == local
    && forall j :: i < j < |eps| ==> IsLocal(eps[j]) != local
  }

  /** No endpoint has locality `local`. */
  predicate NoneOfKind(eps: seq<Endpoint>, local: bool)
  {
    forall i :: 0 <= i < |eps| ==> IsLocal(eps[i]) != local
  }

  /** The address of the last endpoint whose locality is `local`, or "". */
  function LastAddressOfKind(eps: seq<Endpoint>, local: bool): (a: string)
    ensures NoneOfKind(eps, local) ==> a == ""
    ensures forall i :: IsLastOfKind(eps, i, local) ==> a == eps[i].address
    decreases |eps|
  {
    if |eps| == 0 then ""
    else
      var init := eps[..|eps| - 1];
      var e := eps[|eps| - 1];
      if IsLocal(e) == local then e.address
      else
        assert forall i :: IsLastOfKind(eps, i, local) ==> IsLastOfKind(init, i, local);
        LastAddressOfKind(init, local)
  }

  /**
   * The local endpoint is the last address learned from a "local" source and
   * the reflexive one the last address learned from any other source; each
   * is "" when there is none.
   */
  function ExtractLocalAndReflexiveIP(eps: seq<Endpoint>): (r: (string, string))
    ensures NoneOfKind(eps, true) ==> r.0 == ""
    ensures forall i :: IsLastOfKind(eps, i, true) ==> r.0 == eps[i].address
    ensures NoneOfKind(eps, false) ==> r.1 == ""
    ensures forall i :: IsLastOfKind(eps, i, false) ==> r.1 == eps[i].address
  {
    (LastAddressOfKind(eps, true), LastAddressOfKind(eps, false))
  }

  /** The peer section method `m` builds for `device`. */
  function BuildPeerConfig(m: Method, node: Node, device: Device, localIP: string, reflexiveIP4: string): (p: PeerConfig)
    ensures m == ViaRelay ==> p == EmptyPeer.(allowedIPsForRelay := device.advertiseCidrs)
    ensures m != ViaRelay ==>
              && p.publicKey == device.publicKey
              && p.persistentKeepAlive == node.persistentKeepalive
              && p.allowedIPsForRelay == []
              && p.endpoint == (if UsesLocalEndpoint(m) then localIP else reflexiveIP4)
              && p.allowedIPs == (if RoutesVpc(m) then RelayAllowedIP(node.vpc)
                                  else device.allowedIps + device.advertiseCidrs)
  {
    var own := device.allowedIps + device.advertiseCidrs;
    var ka := node.persistentKeepalive;
    match m
    case RelaySelfDirectLocal => PeerConfig(device.publicKey, localIP, own, [], ka)
    case RelaySelf => PeerConfig(device.publicKey, reflexiveIP4, own, [], ka)
    case RelayPeerDirectLocal => PeerConfig(device.publicKey, localIP, RelayAllowedIP(node.vpc), [], ka)
    case RelayPeer => PeerConfig(device.publicKey, reflexiveIP4, RelayAllowedIP(node.vpc), [], ka)
    case DirectLocal => PeerConfig(device.publicKey, localIP, own, [], ka)
    case Reflexive => PeerConfig(device.publicKey, reflexiveIP4, own, [], ka)
    case ViaRelay => EmptyPeer.(allowedIPsForRelay := device.advertiseCidrs)
  }

  // ---------------------------------------------------------------------
  // The selection state machine
  // ---------------------------------------------------------------------

  /** Name and index agree: -1 with "none", or a position with its method's name. */
  predicate Consistent(e: CacheEntry)
  {
    || (e.peeringMethodIndex == -1 && e.peeringMethod == NoneName)
    || (0 <= e.peeringMethodIndex < |Methods| && e.peeringMethod == Name(Methods[e.peeringMethodIndex]))
  }

  /** Only the last method, and not "none", carries the via-relay name. */
  lemma ViaRelayNameOnlyAtLastIndex(e: CacheEntry)
    requires Consistent(e)
    ensures e.peeringMethod == ViaRelayName <==> e.peeringMethodIndex == LastIndex
  {
    var i := e.peeringMethodIndex;
    if i == -1 {
      assert |NoneName| != |ViaRelayName|;
    } else if i < 5 {
      assert |Name(Methods[i])| != |ViaRelayName|;
    } else if i == 5 {
      assert Name(Methods[i])[0] != ViaRelayName[0];
    }
  }

  /** Forget the method in use and every statistic gathered with it. */
  function PeeringReset(e: CacheEntry): (r: CacheEntry)
    ensures r.device == e.device
    ensures r.peeringMethod == NoneName && r.peeringMethodIndex == -1
    ensures !r.peerHealthy
    ensures r.peeringTime == ZeroTime && r.peerHealthyTime == ZeroTime
    ensures r.lastTxBytes == 0 && r.lastRxBytes == 0
    ensures r.lastHandshakeTime == ZeroTime && r.lastHandshake == "" && r.lastRefresh == ZeroTime
  {
    e.(peeringMethod := NoneName, peeringMethodIndex := -1,
       peeringTime := ZeroTime, peerHealthy := false, peerHealthyTime := ZeroTime,
       lastTxBytes := 0, lastRxBytes := 0,
       lastHandshakeTime := ZeroTime, lastHandshake := "", lastRefresh := ZeroTime)
  }

  /** No method after position `i` has its prerequisites met. */
  ghost predicate NoCandidateAfter(i: int, f: Flags)
  {
    forall j :: 0 <= j < |Methods| && i < j ==> !Prereq(Methods[j], f)
  }

  /** Whether some method at position `i` or later has its prerequisites met. */
  function AnyCandidateFrom(i: nat, f: Flags): (r: bool)
    requires i <= |Methods|
    ensures r <==> exists j :: i <= j < |Methods| && Prereq(Methods[j], f)
    decreases |Methods| - i
  {
    if i == |Methods| then false
    else Prereq(Methods[i], f) || AnyCandidateFrom(i + 1, f)
  }

  /** Whether to start over at the top of the method list. */
  function ShouldResetPeering(e: CacheEntry, f: Flags): (r: bool)
    requires ValidIndex(e.peeringMethodIndex)
    ensures e.peeringMethodIndex == -1 ==> !r
    ensures e.peeringMethodIndex == LastIndex ==> r
    ensures r <==> e.peeringMethodIndex != -1
                   && (e.peeringMethodIndex == LastIndex || NoCandidateAfter(e.peeringMethodIndex, f))
  {
    if e.peeringMethodIndex == -1 then false
    else if e.peeringMethodIndex == LastIndex then true
    else !AnyCandidateFrom(e.peeringMethodIndex + 1, f)
  }

  /** Whether the method in use has failed, at time `now`. */
  function PeeringFailed(e: CacheEntry, healthyRelay: bool, now: int): (r: bool)
    // a healthy peer never fails
    ensures e.peerHealthy ==> !r
    // on via-relay, failure is exactly the lack of a healthy relay
    ensures !e.peerHealthy && e.peeringMethodIndex == LastIndex ==> (r <==> !healthyRelay)
    // a method never tried has not failed
    ensures e.peeringMethodIndex != LastIndex && e.peeringTime == ZeroTime ==> !r
    // a method that never worked fails only once peeringTimeout has passed
    ensures (r && e.peeringMethodIndex != LastIndex && e.peerHealthyTime == ZeroTime)
              ==> now - e.peeringTime >= PeeringTimeout
    // a method that worked fails only once peeringRestoreTimeout has passed
    ensures (r && e.peeringMethodIndex != LastIndex && e.peerHealthyTime != ZeroTime)
              ==> now - e.peerHealthyTime >= PeeringRestoreTimeout
    // and once the relevant timeout has passed, an unhealthy, tried method has failed
    ensures (&& !e.peerHealthy && e.peeringMethodIndex != LastIndex && e.peeringTime != ZeroTime
             && (if e.peerHealthyTime == ZeroTime then now - e.peeringTime >= PeeringTimeout
                 else now - e.peerHealthyTime >= PeeringRestoreTimeout))
              ==> r
  {
    if e.peerHealthy then false
    else if e.peeringMethodIndex == LastIndex then !healthyRelay
    else if e.peeringTime == ZeroTime then false
    else if e.peerHealthyTime == ZeroTime && now - e.peeringTime < PeeringTimeout then false
    else if e.peerHealthyTime != ZeroTime && now - e.peerHealthyTime < PeeringRestoreTimeout then false
    else true
  }

  /**
   * Position `j` is a candidate in the selection loop: not before the method
   * in use, not the method in use when it is being replaced, and with its
   * prerequisites met.
   */
  predicate Eligible(d: CacheEntry, f: Flags, tryNext: bool, j: int)
  {
    && 0 <= j < |Methods|
    && j >= d.peeringMethodIndex
    && !(tryNext && j == d.peeringMethodIndex)
    && Prereq(Methods[j], f)
  }

  /**
   * The selection loop from position `i` on: the position chosen, or None
   * when the loop ends without choosing (no candidate, or the peer is
   * already on via-relay and via-relay is the candidate).
   */
  function SelectMethod(d: CacheEntry, f: Flags, tryNext: bool, i: nat): (r: Option<nat>)
    requires i <= |Methods|
    ensures r.Some? ==>
              && i <= r.value < |Methods|
              && Eligible(d, f, tryNext, r.value)
              && !(Methods[r.value] == ViaRelay && d.peeringMethod == ViaRelayName)
              && forall k :: i <= k < r.value ==> !Eligible(d, f, tryNext, k)
    ensures r.None? ==>
              forall j :: (i <= j < |Methods| && Eligible(d, f, tryNext, j))
                            ==> j == LastIndex && d.peeringMethod == ViaRelayName
    decreases |Methods| - i
  {
    if i == |Methods| then None
    else if i < d.peeringMethodIndex then SelectMethod(d, f, tryNext, i + 1)
    else if i == d.peeringMethodIndex && tryNext then SelectMethod(d, f, tryNext, i + 1)
    else if !Prereq(Methods[i], f) then SelectMethod(d, f, tryNext, i + 1)
    else if Methods[i] == ViaRelay && d.peeringMethod == ViaRelayName then None
    else Some(i)
  }

  /** What the peer map currently holds for `key` (Go's zero value if nothing). */
  function ExistingPeer(node: Node, key: string): (p: PeerConfig)
    ensures key in node.peers ==> p == node.peers[key]
    ensures key !in node.peers ==> p == EmptyPeer
  {
    if key in node.peers then node.peers[key] else EmptyPeer
  }

  /**
   * The result of rebuilding one peer: the (possibly reset) cache entry and
   * the peer section, method name and index chosen.
   */
  datatype Rebuilt = Rebuilt(entry: CacheEntry, peer: PeerConfig, methodName: string, methodIndex: int)

  /** The first candidate position of the selection loop. */
  ghost predicate IsFirstEligible(d: CacheEntry, f: Flags, tryNext: bool, j: int)
  {
    Eligible(d, f, tryNext, j) && forall k :: 0 <= k < j ==> !Eligible(d, f, tryNext, k)
  }

  /**
   * Re-decide the method for one peer: detect failure, reset when nothing
   * later is left, then choose the first candidate method.
   */
  function RebuildPeerConfig(node: Node, e: CacheEntry, healthyRelay: bool, sameReflexive: bool, now: int): (r: Rebuilt)
    requires ValidIndex(e.peeringMethodIndex)
    ensures ValidIndex(r.methodIndex)
    ensures r.entry == e || r.entry == PeeringReset(e)
    // a reset happens only after a failure, at the end of the list or when no later method qualifies
    ensures r.entry != e ==>
              && PeeringFailed(e, healthyRelay, now)
              && (e.peeringMethodIndex == LastIndex
                  || NoCandidateAfter(e.peeringMethodIndex, FlagsOf(node, e.device, sameReflexive, healthyRelay)))
    // ... and such a failure is always reset, to start over from the top
    ensures (PeeringFailed(e, healthyRelay, now)
             && ShouldResetPeering(e, FlagsOf(node, e.device, sameReflexive, healthyRelay)))
              ==> r.entry == PeeringReset(e)
    // without a reset the index never goes down
    ensures r.entry == e ==> r.methodIndex >= e.peeringMethodIndex
    // a failure without a reset moves strictly forward
    ensures (r.entry == e && PeeringFailed(e, healthyRelay, now) && r.methodIndex != e.peeringMethodIndex)
              ==> r.methodIndex > e.peeringMethodIndex
    // the first candidate is chosen and built ...
    ensures var f := FlagsOf(node, e.device, sameReflexive, healthyRelay);
            var tryNext := PeeringFailed(e, healthyRelay, now) && r.entry == e;
            forall j :: (IsFirstEligible(r.entry, f, tryNext, j)
                         && !(Methods[j] == ViaRelay && r.entry.peeringMethod == ViaRelayName))
                        ==> var eps := ExtractLocalAndReflexiveIP(e.device.endpoints);
                            && r.methodIndex == j && r.methodName == Name(Methods[j])
                            && r.peer == BuildPeerConfig(Methods[j], node, e.device, eps.0, eps.1)
    // ... and without one (or when already on via-relay) nothing changes
    ensures var f := FlagsOf(node, e.device, sameReflexive, healthyRelay);
            var tryNext := PeeringFailed(e, healthyRelay, now) && r.entry == e;
            (forall j :: (0 <= j < |Methods| && Eligible(r.entry, f, tryNext, j))
                           ==> j == LastIndex && r.entry.peeringMethod == ViaRelayName)
            ==> && r.peer == ExistingPeer(node, e.device.publicKey)
                && r.methodName == r.entry.peeringMethod
                && r.methodIndex == r.entry.peeringMethodIndex
  {
    var eps := ExtractLocalAndReflexiveIP(e.device.endpoints);
    var f := FlagsOf(node, e.device, sameReflexive, healthyRelay);
    var failed := PeeringFailed(e, healthyRelay, now);
    var reset := failed && ShouldResetPeering(e, f);
    var d := if reset then PeeringReset(e) else e;
    var tryNext := failed && !reset;
    assert reset ==> d != e by {
      if reset { assert e.peeringMethodIndex != -1; }
    }
    assert tryNext == (failed && d == e);
    match SelectMethod(d, f, tryNext, 0)
    case None =>
      assert forall j :: IsFirstEligible(d, f, tryNext, j) ==> Methods[j] == ViaRelay && d.peeringMethod == ViaRelayName;
      Rebuilt(d, ExistingPeer(node, e.device.publicKey), d.peeringMethod, d.peeringMethodIndex)
    case Some(i) =>
      // the first candidate is unique
      assert forall j :: IsFirstEligible(d, f, tryNext, j) ==> j == i;
      Rebuilt(d, BuildPeerConfig(Methods[i], node, e.device, eps.0, eps.1), Name(Methods[i]), i)
  }

  /**
   * Prefixes for the relay come only from a switch to via-relay, or from
   * the section already installed.
   */
  lemma RelayPrefixesOfRebuild(node: Node, e: CacheEntry, healthyRelay: bool, sameReflexive: bool, now: int)
    requires ValidIndex(e.peeringMethodIndex)
    ensures var r := RebuildPeerConfig(node, e, healthyRelay, sameReflexive, now);
            r.peer.allowedIPsForRelay != [] ==>
              || (r.methodName == ViaRelayName && r.peer.allowedIPsForRelay == e.device.advertiseCidrs)
              || r.peer == ExistingPeer(node, e.device.publicKey)
  {
    var f := FlagsOf(node, e.device, sameReflexive, healthyRelay);
    var failed := PeeringFailed(e, healthyRelay, now);
    var reset := failed && ShouldResetPeering(e, f);
    var d := if reset then PeeringReset(e) else e;
    var tryNext := failed && !reset;
    match SelectMethod(d, f, tryNext, 0)
    case None =>
    case Some(i) =>
      assert Methods[i] != ViaRelay ==> Name(Methods[i]) != ViaRelayName;
  }

  /** Whether `p` differs from what the peer map holds for `key`. */
  function PeerConfigUpdated(peers: map<string, PeerConfig>, key: string, p: PeerConfig): (r: bool)
    ensures key !in peers ==> r
    ensures key in peers ==> (r <==> peers[key].endpoint != p.endpoint || peers[key].allowedIPs != p.allowedIPs)
  {
    if key !in peers then true
    else if peers[key].endpoint != p.endpoint then true
    else peers[key].allowedIPs != p.allowedIPs
  }
}

=== FILE: peering_properties.dfy ===
/**
 * Properties of the peering-method state machine that relate several calls:
 * where a failure leads, what a reset restarts from, which invariants of a
 * cache entry a rebuild keeps, and how the relay's routes are gathered.
 */
module PeeringProperties {
  import opened Peering
  import opened PeerMap

  /**
   * The methods split by role: a relay node only peers as a relay (the first
   * two methods), a node facing a relay only uses the relay-peer methods,
   * and two ordinary nodes only use the last three.
   */
  lemma PrerequisitesFollowTheRoles(f: Flags, j: int)
    requires 0 <= j < |Methods| && Prereq(Methods[j], f)
    ensures f.selfRelay <==> j <= 1
    ensures !f.selfRelay && f.peerRelay <==> 2 <= j <= 3
    ensures !f.selfRelay && !f.peerRelay <==> 4 <= j
  {
  }

  /** Some position is a candidate, so a first candidate exists. */
  lemma {:induction false} FirstEligibleExists(d: CacheEntry, f: Flags, tryNext: bool, j0: int)
    requires Eligible(d, f, tryNext, j0)
    ensures exists j :: IsFirstEligible(d, f, tryNext, j) && j <= j0
    decreases j0
  {
    if forall k :: 0 <= k < j0 ==> !Eligible(d, f, tryNext, k) {
      assert IsFirstEligible(d, f, tryNext, j0);
    } else {
      var k :| 0 <= k < j0 && Eligible(d, f, tryNext, k);
      FirstEligibleExists(d, f, tryNext, k);
    }
  }

  /** The smallest position after `i` whose method's prerequisites hold. */
  ghost predicate IsFirstCandidateAfter(i: int, f: Flags, j: int)
  {
    && 0 <= j < |Methods| && i < j
    && Prereq(Methods[j], f)
    && forall k :: 0 <= k < j && i < k ==> !Prereq(Methods[k], f)
  }

  /**
   * A failed method that is not reset is replaced by the first later method
   * whose prerequisites hold.
   */
  lemma FailedMethodIsReplacedByFirstLaterCandidate(node: Node, e: CacheEntry, healthyRelay: bool,
                                                    sameReflexive: bool, now: int)
    requires ValidIndex(e.peeringMethodIndex) && Consistent(e)
    requires PeeringFailed(e, healthyRelay, now)
    requires !ShouldResetPeering(e, FlagsOf(node, e.device, sameReflexive, healthyRelay))
    requires !NoCandidateAfter(e.peeringMethodIndex, FlagsOf(node, e.device, sameReflexive, healthyRelay))
    ensures var r := RebuildPeerConfig(node, e, healthyRelay, sameReflexive, now);
            && r.entry == e
            && IsFirstCandidateAfter(e.peeringMethodIndex, FlagsOf(node, e.device, sameReflexive, healthyRelay), r.methodIndex)
            && r.methodName == Name(Methods[r.methodIndex])
  {
    var f := FlagsOf(node, e.device, sameReflexive, healthyRelay);
    var r := RebuildPeerConfig(node, e, healthyRelay, sameReflexive, now);
    assert r.entry == e;
    var j0 :| 0 <= j0 < |Methods| && e.peeringMethodIndex < j0 && Prereq(Methods[j0], f);
    assert Eligible(e, f, true, j0);
    FirstEligibleExists(e, f, true, j0);
    var j :| IsFirstEligible(e, f, true, j) && j <= j0;
    // a consistent entry on via-relay sits at the last index, which would have been reset
    ViaRelayNameOnlyAtLastIndex(e);
    assert !(Methods[j] == ViaRelay && e.peeringMethod == ViaRelayName);
    assert r.methodIndex == j;
    forall k | 0 <= k < j && e.peeringMethodIndex < k
      ensures !Prereq(Methods[k], f)
    {
      assert !Eligible(e, f, true, k);
    }
  }

  /** The first method of the whole list whose prerequisites hold. */
  ghost predicate IsFirstCandidate(f: Flags, j: int)
  {
    IsFirstCandidateAfter(-1, f, j)
  }

  /**
   * After a reset the list is searched from the top: the first method whose
   * prerequisites hold is chosen, or, with none, the peer keeps the "none"
   * method and its current peer section.
   */
  lemma ResetRestartsFromTheTop(node: Node, e: CacheEntry, healthyRelay: bool, sameReflexive: bool, now: int)
    requires ValidIndex(e.peeringMethodIndex)
    requires PeeringFailed(e, healthyRelay, now)
    requires ShouldResetPeering(e, FlagsOf(node, e.device, sameReflexive, healthyRelay))
    ensures var r := RebuildPeerConfig(node, e, healthyRelay, sameReflexive, now);
            var f := FlagsOf(node, e.device, sameReflexive, healthyRelay);
            && r.entry == PeeringReset(e)
            && (NoCandidateAfter(-1, f) ==>
                  r.methodIndex == -1 && r.methodName == NoneName && r.peer == ExistingPeer(node, e.device.publicKey))
            && (!NoCandidateAfter(-1, f) ==> IsFirstCandidate(f, r.methodIndex))
  {
    var f := FlagsOf(node, e.device, sameReflexive, healthyRelay);
    var r := RebuildPeerConfig(node, e, healthyRelay, sameReflexive, now);
    var d := PeeringReset(e);
    assert r.entry == d;
    if !NoCandidateAfter(-1, f) {
      var j0 :| 0 <= j0 < |Methods| && Prereq(Methods[j0], f);
      assert Eligible(d, f, false, j0);
      FirstEligibleExists(d, f, false, j0);
      var j :| IsFirstEligible(d, f, false, j) && j <= j0;
      assert r.methodIndex == j;
      forall k | 0 <= k < j
        ensures !Prereq(Methods[k], f)
      {
        assert !Eligible(d, f, false, k);
      }
    }
  }

  /** A rebuild keeps a cache entry's name and index in agreement. */
  lemma RebuildKeepsNameAndIndexConsistent(node: Node, e: CacheEntry, healthyRelay: bool,
                                           sameReflexive: bool, now: int)
    requires ValidIndex(e.peeringMethodIndex) && Consistent(e)
    ensures var r := RebuildPeerConfig(node, e, healthyRelay, sameReflexive, now);
            Consistent(r.entry.(peeringMethod := r.methodName, peeringMethodIndex := r.methodIndex))
  {
    var f := FlagsOf(node, e.device, sameReflexive, healthyRelay);
    var r := RebuildPeerConfig(node, e, healthyRelay, sameReflexive, now);
    var tryNext := PeeringFailed(e, healthyRelay, now) && r.entry == e;
    if exists j :: 0 <= j < |Methods| && Eligible(r.entry, f, tryNext, j)
                   && !(j == LastIndex && r.entry.peeringMethod == ViaRelayName) {
      var j0 :| 0 <= j0 < |Methods| && Eligible(r.entry, f, tryNext, j0)
                && !(j0 == LastIndex && r.entry.peeringMethod == ViaRelayName);
      FirstEligibleExists(r.entry, f, tryNext, j0);
      var j :| IsFirstEligible(r.entry, f, tryNext, j) && j <= j0;
      assert !(Methods[j] == ViaRelay && r.entry.peeringMethod == ViaRelayName);
      assert r.methodIndex == j && r.methodName == Name(Methods[j]);
    } else {
      assert r.methodIndex == r.entry.peeringMethodIndex && r.methodName == r.entry.peeringMethod;
    }
  }

  /**
   * A reset entry has not failed, whatever the time and relay: its method
   * counts as never tried.
   */
  lemma ResetEntryHasNotFailed(e: CacheEntry, f: Flags, healthyRelay: bool, now: int)
    ensures !PeeringFailed(PeeringReset(e), healthyRelay, now)
    ensures !ShouldResetPeering(PeeringReset(e), f)
    ensures Consistent(PeeringReset(e))
  {
  }

  /** Once a method has failed it stays failed as time goes on. */
  lemma FailureIsMonotoneInTime(e: CacheEntry, healthyRelay: bool, now: int, later: int)
    requires now <= later
    requires PeeringFailed(e, healthyRelay, now)
    ensures PeeringFailed(e, healthyRelay, later)
  {
  }

  /**
   * A peer on via-relay that has not failed keeps its method and index, and
   * gets back whatever the peer map holds for it; with no entry (the usual
   * case, as switching to the relay deletes it) it hands no prefixes to the
   * relay.
   */
  lemma StayingOnViaRelayKeepsNoPrefixes(node: Node, e: CacheEntry, healthyRelay: bool, sameReflexive: bool, now: int)
    requires e.peeringMethodIndex == LastIndex && e.peeringMethod == ViaRelayName
    requires !node.relay && !e.device.relay && healthyRelay
    ensures var r := RebuildPeerConfig(node, e, healthyRelay, sameReflexive, now);
            && r.entry == e
            && r.methodIndex == LastIndex && r.methodName == ViaRelayName
            && r.peer == ExistingPeer(node, e.device.publicKey)
            && (e.device.publicKey !in node.peers ==> r.peer.allowedIPsForRelay == [])
  {
    var f := FlagsOf(node, e.device, sameReflexive, healthyRelay);
    var r := RebuildPeerConfig(node, e, healthyRelay, sameReflexive, now);
    assert !PeeringFailed(e, healthyRelay, now);
    assert r.entry == e;
    forall j | 0 <= j < |Methods| && Eligible(r.entry, f, false, j)
      ensures j == LastIndex && r.entry.peeringMethod == ViaRelayName
    {
    }
  }

  /**
   * Prefixes for the relay come only from a fresh switch to via-relay, and
   * are exactly the peer's advertised prefixes.
   */
  lemma RelayPrefixesComeFromViaRelay(node: Node, e: CacheEntry, healthyRelay: bool, sameReflexive: bool, now: int)
    requires ValidIndex(e.peeringMethodIndex)
    requires NoRelayPrefixesStored(node.peers)
    ensures var r := RebuildPeerConfig(node, e, healthyRelay, sameReflexive, now);
            r.peer.allowedIPsForRelay != [] ==>
              r.methodName == ViaRelayName && r.peer.allowedIPsForRelay == e.device.advertiseCidrs
  {
    RelayPrefixesOfRebuild(node, e, healthyRelay, sameReflexive, now);
  }

  /** Storing a peer section makes it the installed one: rebuilding it again is no change. */
  lemma StoredConfigIsNotUpdated(peers: map<string, PeerConfig>, key: string, p: PeerConfig, q: PeerConfig)
    requires q.endpoint == p.endpoint && q.allowedIPs == p.allowedIPs
    ensures !PeerConfigUpdated(peers[key := p], key, q)
    ensures PeerConfigUpdated(peers - {key}, key, q)
  {
  }

  /**
   * As written, the relay's widened AllowedIPs name the IPv4 prefix twice and
   * lose the IPv6 prefix; the corrected list keeps it.
   */
  lemma RelayWideningAsWrittenDropsIpv6(vpc: Vpc, collected: seq<string>)
    requires vpc.ipv6Cidr != vpc.ipv4Cidr && vpc.ipv6Cidr !in collected
    ensures vpc.ipv6Cidr !in RelayAllowedIPsAsWritten(vpc, collected)
    ensures vpc.ipv6Cidr in RelayAllowedIPs(vpc, collected)
    ensures RelayAllowedIPs(vpc, collected)[..2] == RelayAllowedIP(vpc)
  {
    var w := RelayAllowedIPsAsWritten(vpc, collected);
    assert w == [vpc.ipv4Cidr, vpc.ipv4Cidr] + collected;
  }
}

=== FILE: wrappers.dfy ===
/** An optional value shared by the other modules. */
module Wrappers {

  /** Some value, or nothing (Go's "zero value / not found" cases). */
  datatype Option<+T> = None | Some(value: T)
}
